=== FILE: README.md ===
# twitter_research ingestion and title enrichment, modelled in Dafny

The repository gathers tweets into PostgreSQL in two resumable batch scripts.

- `parse.py` reads a newline-delimited file of tweets. Each tweet is written as one JSON line followed by a blank line. The script projects every tweet onto a row (id, user id, timestamp, unescaped text, hashtags, URLs, mentions) and inserts it. It counts only non-blank lines. Once it is out of resume mode, it commits whenever that count reaches a multiple of 1000. When the destination table already exists and `count(*)` is not zero, it passes over the first `count(*) + 1` non-blank lines before it parses again. The extra line is the one read when the counter equals `count(*)`: it clears the resume flag and is skipped too.
- `titles.py` walks a tweet table in `tweet_id` order, in `fetchmany` batches of 10. For each row it fetches every URL, extracts the page `<title>`, cleans it and stores the list of titles for the row. Once it is out of resume mode, it commits whenever its row count reaches a multiple of 10. When its table already exists and `max(tweet_id)` is neither NULL nor zero, it passes over every row up to and including the one with that id.

The model is split into modules:

- `Wrappers`: Option and Result, plus `Traverse`. `Traverse` maps a failing function over a sequence and stops at the first failure, as a Python append loop does when an exception is raised.
- `Json`: the values `json.loads` returns, and the Python operations the projection applies to them. These are subscripting, iteration and truthiness.
- `Tweets`: the per-line projection (`Parse`) and its append loops (`Pluck`).
- `Cadence`: the run status, the exit code, and where batch commits fall.
- `Checkpoints`: how each script resolves its resume position.
- `Ingest`: the per-line state machine of `parse.py`. It has a specification (`StepSpec`, `RunSpec`, `Finish`) and a class `Ingestor`, whose methods update the source's counters in place and are proved equal to that specification.
- `TitleText`: the case-insensitive, lazy `<title>` search and the cleaning of a title.
- `Enrich`: the per-row state machine of `titles.py`. It follows the same pattern, with a class `Enricher` whose `Run` has the batch loop and the row loop.

The ghost fields of the state record what the database sees:

- the lines handed to `json.loads`, or the rows handled;
- the rows inserted;
- the `progress` value at each commit;
- how many inserts were durable at the last commit.

The outside world is passed in as parameters:

- the file contents and the table rows are sequences;
- `json.loads`, `html.unescape` and `strptime` are oracle functions;
- the database's acceptance of a row is a predicate;
- the network is a function from URL to fetch outcome.

## Model

| member | source | states |
|---|---|---|
| `Wrappers.TraverseOutcome` | parse.py:144-150 | An append loop over the entities either yields one value per element, pointwise, or fails with the error of the first failing element, all earlier elements having succeeded. |
| `Wrappers.TraverseStopsAtFailure` | parse.py:144-150 | Once a prefix has failed, no later element changes the outcome of the loop. |
| `Wrappers.Traverse` | parse.py:144-150 | Definition of an append loop that stops at the first raising element. What is proved about it: `TraverseOutcome`, `TraverseStopsAtFailure`. |
| `Json.Index` | parse.py:132-133 | `v[key]` succeeds exactly on a dict holding the key and returns its value. KeyError is raised exactly on a dict without the key. Anything else raises TypeError. |
| `Json.Iterate` | parse.py:144-149 | A list yields its items. Only a list, an empty dict or an empty str iterate without TypeError, and only a list yields anything. |
| `Tweets.Truthies` | parse.py:145-146 | The kept values are exactly the truthy members of the input, and no more than the input. |
| `Tweets.TruthiesAppend` | parse.py:144-146 | The filter distributes over concatenation, so the kept URLs stay in entity order. |
| `Tweets.PluckedOutcome` | parse.py:144-150 | The list built from the entities' `key` values. It succeeds iff every entity is a dict with `key`. It holds every value pointwise (hashtags, mentions), or exactly the truthy ones (urls). Otherwise it fails with the first entity's error. |
| `Tweets.PluckedErrors` | parse.py:144-150 | The append loops raise only KeyError (a dict without `key`) or TypeError (an entity that is not a dict). |
| `Tweets.Plucked` | parse.py:144-150 | Definition of one entity loop, built on `Traverse`. What is proved about it: `PluckedOutcome`, `PluckedErrors`, and `Pluck` computes it. |
| `Tweets.Pluck` | parse.py:144-150 | The append loop computes exactly `Plucked`. It stops at the first failing entity. |
| `Tweets.Unescape` | parse.py:134 | A str is unescaped. A list or dict without an `"&"` member passes through unchanged. Anything else, including a list or dict with an `"&"` member, raises TypeError. |
| `Tweets.Timestamp` | parse.py:137-138 | Succeeds exactly on a str that the format accepts. Any non-str raises TypeError, which no handler catches. A non-matching str raises ValueError. |
| `Tweets.EntityLists` | parse.py:144-150 | Definition of the three entity loops in source order. What is proved about it: `EntityListsOutcome`, and `CollectEntities` computes it. |
| `Tweets.Parse` | parse.py:129-150 | Definition of the field projection in the source's read order. What is proved about it: `ParseErrors`, `ParseRequiresFields`, `ParseMissingKeySkips`, `ParseKeeps`, `EntityOrder`, and `ParseTweet` computes it. |
| `Tweets.EntityListsOutcome` | parse.py:144-150 | The three entity loops raise only KeyError or TypeError, and the URLs they keep are all truthy. |
| `Tweets.CollectEntities` | parse.py:144-150 | The three loops, run in the source's order, compute exactly `EntityLists`. |
| `Tweets.ParseErrors` | parse.py:129-150 | A non-dict record raises TypeError. A record without `id` raises KeyError. No parse error is a decode error. |
| `Tweets.ParseRequiresFields` | parse.py:132-150 | A record missing any of `id`, `user`, `text`, `created_at`, `entities` is not stored. Which exception it raises depends on the fields read before the missing one: see `ParseMissingKeySkips`. |
| `Tweets.ParseMissingKeySkips` | parse.py:132-150 | On a record whose present fields have the shapes the projection reads, every exception raised is a KeyError. A record missing any required field then raises exactly KeyError, which parse.py:159-161 counts as a skip. |
| `Tweets.ParseKeeps` | parse.py:132-154 | A stored row carries the record's own `id` and only truthy URLs. |
| `Tweets.ParseTweet` | parse.py:129-150 | The projection, with its loops, computes exactly `Parse`. |
| `Tweets.EntityOrder` | parse.py:140-150 | Hashtags and mentions hold one value per entity in entity order. URLs are the truthy `expanded_url` values in entity order. |
| `Cadence.ExitCode` | parse.py:169 | The exit status is 0 exactly when the run finished normally. |
| `Cadence.Multiples` | parse.py:171-175 | Holds exactly the multiples of the batch size within the bounds, in strictly increasing order. |
| `Checkpoints.FromRowCount` | parse.py:89-107 | Resume mode holds iff CREATE TABLE failed and the row count is non-zero, and then the position is that count. Otherwise the position is 0. |
| `Checkpoints.FromMaxId` | titles.py:80-99 | Resume mode holds iff CREATE TABLE failed and `max(tweet_id)` is neither NULL nor 0, and then the position is that id. Otherwise the position is 0. |
| `Ingest.FileLen` | parse.py:14-19 | `file_len` returns the number of lines, except that an empty file gives 1. |
| `Ingest.NonBlank` | parse.py:119 | The lines processed are exactly the non-separator lines. |
| `Ingest.SeparatedAmount` | parse.py:113 | On a file where each record is followed by one separator, the non-blank lines are the records and `file_len // 2` is the record count. |
| `Ingest.UnterminatedAmount` | parse.py:113 | When the last separator is missing, `file_len // 2` undercounts the records by one. |
| `Ingest.Classify` | parse.py:129-169 | A line is skipped iff it fails to decode or raises KeyError. A line that decodes and parses is inserted when the store accepts the row and rejected when it refuses it. A line crashes iff it decodes and the projection raises anything but KeyError. The crash then carries that error, which is TypeError or ValueError. |
| `Ingest.ClassifyLine` | parse.py:129-169 | Decoding, projecting and storing a line decide exactly the outcome `Classify` states. |
| `Ingest.StepSpec` | parse.py:117-175 | A blank line, or any line after the run ended, changes nothing. Every other line adds one to `progress`. A run never restarts and never re-enters resume mode. |
| `Ingest.StepPassesOver` | parse.py:124-127 | While resuming, a line is counted but not parsed, inserted or skipped. Resume mode ends on the line read at `progress == resume_count`. |
| `Ingest.StepActive` | parse.py:129-175 | An active line is parsed. A skip adds no insert. An accepted row is one insert. A rejection is one skip, a commit at the current progress, and the Aborted end. An escaping exception is the Crashed end. |
| `Ingest.StepRecord` | parse.py:124-175 | For a line after which the run goes on, the resume flag, the parsed lines, the inserts and the commit taken are determined. A resuming line is neither parsed nor inserted. Otherwise an accepted line adds its tweet. A commit is taken when not resuming and `progress % 1000 == 0`. |
| `Ingest.StepInv` | parse.py:117-175 | Every step keeps `0 <= skipped <= progress` and fewer than 1000 uncommitted inserts. While resuming, nothing has been parsed, inserted or committed. |
| `Ingest.Ticked` | parse.py:170-175 | Definition of the `finally` block: count the line, and commit at a multiple of 1000 outside resume mode. What is proved about it: `StepRecord`, `RunCommits`, and `Ingestor.Finally` computes it. |
| `Ingest.Committed` | parse.py:175 | Definition of `conn.commit()`: record the commit point and make every insert durable. What is proved about it: `StepInv`, `RunCommits`, and `Ingestor.Commit` computes it. |
| `Ingest.Resolve` | parse.py:153-175 | Definition of the insert, the handlers and the `finally` block for a known outcome. What is proved about it: `StepActive`, and `Ingestor.Apply` computes it. |
| `Ingest.RunSpec` | parse.py:117-175 | Definition of the loop over the file as one `StepSpec` per line. What is proved about it: `RunHalted`, `RunInv`, `RunIgnoresBlank`, `RunCounts`, `RunParses`, `RunInserts`, `RunCommits`, `ResolvedRun`, `ResolvedInserts`. |
| `Ingest.Finish` | parse.py:177-180 | After the loop, a run still going gets the final commit and ends Finished. An ended run is left as it is. |
| `Ingest.RunHalted` | parse.py:169 | After `sys.exit(-2)` or an escaping exception, no further line is read. |
| `Ingest.RunInv` | parse.py:117-175 | The invariant holds after any sequence of lines. |
| `Ingest.RunIgnoresBlank` | parse.py:119 | A run over the file is the run over its non-blank lines. |
| `Ingest.RunCounts` | parse.py:124-127 | Over non-blank lines, a run that does not exit counts every line. It stays in resume mode exactly until the checkpoint line has been read. |
| `Ingest.RunParses` | parse.py:124-129 | A resuming run never parses the lines it passes over, and parses every later line. |
| `Ingest.Inserted` | parse.py:153-154 | Definition of the tweets the store accepts from a sequence of lines, in line order. It holds no more tweets than lines. |
| `Ingest.RunInserts` | parse.py:124-154 | A run that does not exit inserts exactly the accepted tweets of the lines after those it passes over, in line order. No line passed over is inserted. |
| `Ingest.RunCommits` | parse.py:170-175 | Batch commits happen at exactly the multiples of 1000 from the first line after resume mode. |
| `Ingest.ResolvedRun` | parse.py:89-180 | From the resolved checkpoint, a run that does not exit counts every non-blank line and never parses the first `count + 1` non-blank lines. It commits at the multiples of 1000 past those lines, then makes the final commit and exits 0. |
| `Ingest.ResolvedInserts` | parse.py:89-154 | From the resolved checkpoint, a run that does not exit inserts exactly the accepted tweets of the lines it parsed, in line order. With `ResolvedRun`, none of the first `count + 1` non-blank lines is inserted. |
| `Ingest.RejectionAborts` | parse.py:162-169 | A store rejection ends the run Aborted. No later line is read, no final commit follows, and the exit status is -2. |
| `Ingest.Ingestor.constructor` | parse.py:86-112 | The controller starts at the resolved checkpoint with zero counters. |
| `Ingest.Ingestor.Commit` | parse.py:168 | A commit records the current progress and makes every insert durable. |
| `Ingest.Ingestor.Finally` | parse.py:170-175 | The `finally` block counts the line and commits at a multiple of 1000 outside resume mode. |
| `Ingest.Ingestor.Step` | parse.py:117-175 | The loop body updates the counters and the flag exactly as `StepSpec` describes. |
| `Ingest.Ingestor.Handle` | parse.py:128-175 | Once resume mode is over, a non-blank line updates the state exactly as `StepSpec` describes. |
| `Ingest.Ingestor.Apply` | parse.py:153-175 | The insert, the handlers and the `finally` block apply a line's outcome. An insert appends the row. A skip counts one. A rejection counts one, commits, and ends the run as Aborted. Any other exception ends it as Crashed. |
| `Ingest.Ingestor.Run` | parse.py:117-180 | The loop followed by the final commit leaves exactly the state `Finish(RunSpec(...))`. |
| `Ingest.IngestFile` | parse.py:86-191 | The reported progress, skipped count, total and exit status are those of the modelled run. |
| `TitleText.FindFrom` | titles.py:109 | Finds the first position at or after `from` where the pattern occurs, ignoring ASCII case. None means it occurs nowhere after `from`. |
| `TitleText.SearchIsLeftmostLazy` | titles.py:109 | `Search` succeeds iff the pattern matches anywhere. It then returns the group of the leftmost match whose `</title>` comes first: `.*?` is lazy, and DOTALL lets it span newlines. |
| `TitleText.Search` | titles.py:109 | Definition of `regex.search(...).group(1)` as a scan for `<title>` and then for the first `</title>` after it. What is proved about it: `SearchIsLeftmostLazy`. |
| `TitleText.ReplaceNewlines` | titles.py:142 | Every newline becomes a space, every other character stays, and no newline remains. |
| `TitleText.LeftCut` | titles.py:143 | Everything before the cut is a strip character, and the character at the cut is not. |
| `TitleText.RightCut` | titles.py:143 | Everything after the cut is a strip character, and the last character kept is not. |
| `TitleText.Strip` | titles.py:143 | The result is a slice of the input with only strip characters removed around it. It neither starts nor ends with one. |
| `TitleText.Clean` | titles.py:141-143 | A cleaned title holds no newline, and neither starts nor ends with a space, tab or carriage return. |
| `Enrich.FetchFailure` | titles.py:136-137 | A fetch fails exactly when no page comes back. An unhandled failure is exactly the one no clause catches. |
| `Enrich.TitleOf` | titles.py:136-143 | A URL yields a title iff the page arrives, the search matches, and the raw title is shorter than 1000. The title is then the cleaned raw title, with no newline. The failure escapes iff the fetch failed in a way no handler catches. |
| `Enrich.TitlesOf` | titles.py:134-144 | A row yields titles iff every URL does. There is then one title per URL, in URL order. Otherwise it yields the first URL's failure. |
| `Enrich.CollectTitles` | titles.py:134-144 | The URL loop computes exactly `TitlesOf`, stopping at the first exception. |
| `Enrich.RowSpec` | titles.py:121-169 | After the run ended, nothing changes. Otherwise the row adds one to `progress`. A run never restarts and never re-enters resume mode. |
| `Enrich.RowPassesOver` | titles.py:125-128 | While resuming, a row is counted but not handled. The row whose id is the resume id is the last one passed over. |
| `Enrich.RowActive` | titles.py:130-169 | An empty URL list, a caught exception or no titles is one skip and no insert. A full title list is one insert. An uncaught exception is the Crashed end. |
| `Enrich.RowAllOrNothing` | titles.py:131-149 | A row is stored iff its URL list is non-empty and every URL yields a title. The stored list holds one title per URL in order, so the `len(titles) > 0` test never fails. |
| `Enrich.RowRecord` | titles.py:121-169 | For a row after which the run goes on, the resume flag, the handled rows, the inserts and the commit taken are determined. A resuming row is neither handled nor stored. Otherwise the row's entry is added when it has titles. A commit is taken when not resuming and `progress % 10 == 0`. |
| `Enrich.RowInv` | titles.py:121-169 | Every row keeps `0 <= skipped <= progress` and fewer than 10 uncommitted inserts. While resuming, nothing has been handled, stored or committed. Without a crash, every handled row was either inserted or skipped. |
| `Enrich.Ticked` | titles.py:165-169 | Definition of the `finally` block: count the row, and commit at a multiple of 10 outside resume mode. What is proved about it: `RowRecord`, `RowsCommits`, and `Enricher.Finally` computes it. |
| `Enrich.Committed` | titles.py:169 | Definition of `conn.commit()`: record the commit point and make every insert durable. What is proved about it: `RowInv`, `RowsCommits`, and `Enricher.Commit` computes it. |
| `Enrich.Settle` | titles.py:146-169 | Definition of the insert or skip after the URL loop, the handlers and the `finally` block for a known outcome. What is proved about it: `RowActive`, `RowAllOrNothing`, and `Enricher.Apply` computes it. |
| `Enrich.RowsSpec` | titles.py:119-169 | A run either keeps its status or goes from Running to Crashed. |
| `Enrich.Finish` | titles.py:171-174 | After the loops, a run still going gets the final commit and ends Finished. A crashed run is left as it is. |
| `Enrich.RowsHalted` | titles.py:165-169 | After an uncaught exception, no further row is read. |
| `Enrich.RowsPrefixHalted` | titles.py:119-169 | Once a prefix of the rows has ended the run, the remaining rows change nothing. |
| `Enrich.RowsInv` | titles.py:119-169 | The invariant holds after any sequence of rows. |
| `Enrich.FirstIndexOf` | titles.py:126 | Returns the index of the first row carrying the id, or the row count when none does. |
| `Enrich.PassOverExtend` | titles.py:125-128 | Until the resume id has been seen, nothing is handled. Afterwards each further row is handled. |
| `Enrich.RowsCounts` | titles.py:121-168 | A run that does not crash counts every row. It stays in resume mode iff no row carries the resume id. |
| `Enrich.RowsHandled` | titles.py:125-131 | A run handles exactly the rows after the first one whose id is the resume id, or none when no row matches. |
| `Enrich.Entries` | titles.py:146-147 | Definition of the entries stored for a sequence of rows, in row order. It holds no more entries than rows. |
| `Enrich.RowsInserts` | titles.py:125-147 | A run that does not crash stores exactly the entries of the rows after those it passes over, in row order. No row passed over is stored. |
| `Enrich.RowsCommits` | titles.py:165-169 | Batch commits happen at exactly the multiples of 10 from the first row after resume mode. |
| `Enrich.ResolvedEnrichment` | titles.py:80-174 | From the resolved checkpoint, a run that does not crash counts every row. It passes over every row up to and including the one whose id is `max(tweet_id)`, or all rows when none matches. Every later row is inserted or skipped. It commits at the multiples of 10 past the passed-over rows, then makes the final commit and exits 0. |
| `Enrich.ResolvedInserts` | titles.py:80-147 | From the resolved checkpoint, a run that does not crash stores exactly the entries of the rows it handled, in row order. With `ResolvedEnrichment`, no row up to the resume id is stored. |
| `Enrich.CrashEnds` | titles.py:151-169 | An uncaught exception on a row ends the run Crashed. No later row is read, no final commit follows, and the exit status is 1. |
| `Enrich.Batches` | titles.py:119 | `math.ceil(amount / 10)`: the fewest batches of 10 that cover `amount` rows. |
| `Enrich.Fetched` | titles.py:119-121 | The rows the batches deliver: a prefix of the table of length `min(rows, 10 * batches)`. |
| `Enrich.FetchedAll` | titles.py:101-121 | When `count(*)` matches the selected rows, every row is fetched. |
| `Enrich.FetchedShort` | titles.py:101-121 | When `count(*)` falls short, the rows past the last whole batch are never read. |
| `Enrich.Enricher.constructor` | titles.py:77-116 | The controller starts at the resolved checkpoint with zero counters and no fetches. |
| `Enrich.Enricher.Commit` | titles.py:169 | A commit records the current progress and makes every insert durable. |
| `Enrich.Enricher.Finally` | titles.py:165-169 | The `finally` block counts the row and commits at a multiple of 10 outside resume mode. |
| `Enrich.Enricher.Step` | titles.py:121-169 | The row body updates the counters and the flag exactly as `RowSpec` describes. |
| `Enrich.Enricher.Handle` | titles.py:130-169 | Once resume mode is over, a row updates the state exactly as `RowSpec` describes, and no batch is fetched. |
| `Enrich.Enricher.Apply` | titles.py:146-169 | After the URL loop, titles are inserted when there are any and skipped otherwise. A caught exception is one skip. Any other exception ends the run as Crashed. The `finally` block runs in every case. |
| `Enrich.Enricher.RunBatch` | titles.py:121-169 | The row loop over one batch leaves exactly the state `RowsSpec` gives for that batch. |
| `Enrich.Enricher.Run` | titles.py:119-174 | The batch loop and the final commit leave exactly the state `Finish(RowsSpec(...))` over the fetched rows. A run that finishes makes exactly `ceil(amount / 10)` `fetchmany` calls. |
| `Enrich.EnrichTable` | titles.py:77-185 | The reported progress, skipped count, total and exit status are those of the modelled run. |

## Left out

- Database plumbing:
  - the SQL text, connection errors (`sys.exit(-1)`), cursors and `ON CONFLICT DO NOTHING`;
  - the fact that PostgreSQL turns the COMMIT of an aborted transaction into a rollback.
  The store is modelled as an acceptance predicate. A commit marks every insert so far as durable.
  An INSERT in parse.py either succeeds or raises one of the database errors the handler catches. An INSERT that raises anything else is not modelled, such as psycopg2's ValueError for a str containing NUL, which would crash the run.
- Network timing. Timeouts and other transport outcomes come from a fetch oracle. The oracle depends only on the URL, so repeated fetches of a URL agree.
- `json.loads`, `html.unescape` and `strptime`/`strftime` are oracle functions. Their internal formats are not modelled.
- JSON floating-point numbers. They are not part of `Json`.
- Case folding beyond ASCII in the `re.IGNORECASE` title search.
- The progress bar, logging, `time.sleep`, and the printed start and finish times. The model assumes `pbar.update(progress)` in the `finally` blocks never raises. progressbar2 raises ValueError past `max_value`, for example on an unterminated parse.py input whose record count is a multiple of 1000. That ValueError would crash the run and skip the commit.
- `math.ceil` on a float quotient. `Batches` uses exact integer ceiling, which differs only for astronomically large counts.
- A NULL `urls` column in titles.py (`len(None)` raises TypeError). Rows carry a URL list.
- A failure of the titles INSERT. The source has no handler for it, and no abort path is modelled.
- Exit status -2 is reported as -2. How the operating system presents it is not modelled: POSIX systems see 254, Windows sees -2.
- Behaviours the model takes from the code as written, which a reader might not expect:
  - parse.py prints its summary only when the run finishes. After a store rejection it exits without the summary.
  - In resume mode parse.py passes over `count + 1` non-blank lines, not `count`. The flag is cleared on the line read at `progress == resume_count`, and that line is also skipped by the `continue`.
  - A row's title list in titles.py is all-or-nothing (titles.py:134-149). The first URL that raises ends the URL loop, the row is skipped, and no title of that row is stored.
  - `hashtags` and `user_mentions` keep null and other falsy values (parse.py:147-150). Only `urls` is filtered for truthiness.
- `Ingest.IngestFile` and `Enrich.EnrichTable`: the summary values are returned, not printed. The title-table CREATE and the count queries are the inputs `createFailed`, `count`, `maxId` and `amount`.

=== FILE: cadence.dfy ===
/** What both batch loops share: how a run ends and where batch commits fall. */
module Cadence {

  /** Where a run stands: still reading items; ended normally after the final
      commit; ended by sys.exit(-2) after the store rejected a record; or ended by
      an exception that nothing catches. */
  datatype Status = Running | Finished | Aborted | Crashed

  /** The process exit status of a run that has ended: 0 on normal completion,
      the -2 passed to sys.exit after a store rejection, and the interpreter's 1
      for an uncaught exception. */
  function ExitCode(s: Status): (code: int)
    requires s != Running
    ensures code == 0 <==> s == Finished
  {
    match s
    case Finished => 0
    case Aborted => -2
    case Crashed => 1
  }

  /** The multiples of `size` from `lo` to `hi` inclusive, ascending: the progress
      values at which a batch commit falls due. */
  function Multiples(lo: int, hi: int, size: nat): (r: seq<int>)
    requires size > 0
    ensures forall k :: k in r <==> lo <= k <= hi && k % size == 0
    ensures forall i :: 0 <= i < |r| ==> lo <= r[i] <= hi
    ensures forall i, j :: 0 <= i < j < |r| ==> r[i] < r[j]
    decreases if hi < lo then 0 else hi - lo + 1
  {
    if hi < lo then []
    else Multiples(lo, hi - 1, size) + (if hi % size == 0 then [hi] else [])
  }

  /** Raising the upper bound by one adds that bound when it is a due multiple. */
  lemma MultiplesNext(lo: int, hi: int, size: nat)
    requires size > 0
    ensures Multiples(lo, hi + 1, size) ==
      Multiples(lo, hi, size) + (if lo <= hi + 1 && (hi + 1) % size == 0 then [hi + 1] else [])
  {
    if hi + 1 < lo {
      assert Multiples(lo, hi, size) == [];
    }
  }

  /** `s` without its first `n` elements (all of them when `n` is at least `|s|`). */
  function Drop<T>(s: seq<T>, n: nat): (r: seq<T>)
    ensures |r| == if n <= |s| then |s| - n else 0
    ensures forall i :: 0 <= i < |r| ==> r[i] == s[n + i]
  {
    if n <= |s| then s[n..] else []
  }

  /** Dropping the same prefix from a sequence and from its extension by one element. */
  lemma DropSnoc<T>(s: seq<T>, x: T, n: nat)
    requires n <= |s|
    ensures Drop(s + [x], n) == Drop(s, n) + [x]
  {
    assert (s + [x])[n..] == s[n..] + [x];
  }

  /** A prefix of `s` is a shorter prefix followed by the slice between them. */
  lemma PrefixSplit<T>(s: seq<T>, i: nat, j: nat)
    requires i <= j <= |s|
    ensures s[..j] == s[..i] + s[i..j]
  {
  }

  /** Concatenation is associative. */
  lemma AppendAssoc<T>(a: seq<T>, b: seq<T>, c: seq<T>)
    ensures (a + b) + c == a + (b + c)
  {
  }

  /** Dropping fewer elements than a non-empty sequence holds keeps its last element. */
  lemma DropLast<T>(s: seq<T>, n: nat)
    requires n < |s|
    ensures Drop(s, n) == Drop(s[..|s| - 1], n) + [s[|s| - 1]]
  {
    assert s == s[..|s| - 1] + [s[|s| - 1]];
    DropSnoc(s[..|s| - 1], s[|s| - 1], n);
  }
}

=== FILE: checkpoints.dfy ===
/** Checkpoint resolution: where a run resumes, derived from the destination table. */
module Checkpoints {
  import opened Wrappers

  /** The resume position and whether the run starts in resume mode. */
  datatype Checkpoint = Checkpoint(position: int, resuming: bool)

  /** parse.py: if CREATE TABLE raised, the table exists and the run resumes after
      `count(*)` rows; a count of zero switches resume mode back off. */
  function FromRowCount(createFailed: bool, count: nat): (cp: Checkpoint)
    ensures cp.resuming <==> createFailed && count != 0
    ensures cp.resuming ==> cp.position == count
    ensures !cp.resuming ==> cp.position == 0
    ensures cp.position >= 0
  {
    var flag := createFailed;
    if !flag then Checkpoint(0, false)
    else if count == 0 then Checkpoint(0, false)
    else Checkpoint(count, true)
  }

  /** titles.py: if CREATE TABLE raised, the run resumes after the row whose id is
      `max(tweet_id)`; a NULL (empty table) or zero maximum switches resume mode
      back off. Ids are bigint, so a negative maximum also resumes. */
  function FromMaxId(createFailed: bool, maxId: Option<int>): (cp: Checkpoint)
    ensures cp.resuming <==> createFailed && maxId.Some? && maxId.value != 0
    ensures cp.resuming ==> cp.position == maxId.value
    ensures !cp.resuming ==> cp.position == 0
  {
    var flag := createFailed;
    if !flag then Checkpoint(0, false)
    else match maxId
      case None => Checkpoint(0, false)
      case Some(m) => if m == 0 then Checkpoint(0, false) else Checkpoint(m, true)
  }
}

=== FILE: enrich.dfy ===
/** titles.py: resumable, chunked enrichment of stored tweets with the titles of the
    pages their URLs point to. */
module Enrich {
  import opened Wrappers
  import opened Cadence
  import opened Checkpoints
  import opened TitleText

  /** Rows per fetchmany batch; a commit falls due every this many rows. */
  const Chunk: nat := 10

  /** A raw title this long or longer is not stored (the column is varchar(1000)). */
  const MaxTitle: nat := 1000

  /** A row of the source table as `ORDER BY tweet_id` delivers it: its id and URL list. */
  datatype Row = Row(id: int, urls: seq<string>)

  /** What `requests.get(url)` followed by `r.text` gives: the decoded page; a timeout
      (eventlet's TimeoutError or requests' ReadTimeout); a ConnectionError,
      TooManyRedirects or ChunkedEncodingError; a UnicodeError or ContentDecodingError;
      or any other exception, which no handler catches. */
  datatype Fetch = Page(text: string) | TimedOut | ConnectionFailed | DecodingFailed | OtherFailure

  /** The network and html.unescape, as oracles. */
  datatype Web = Web(fetch: string -> Fetch, unescape: string -> string)

  /** The exception that ends the work on a row, by the handler that catches it:
      AttributeError or IndexError, timeout, decoding, connection, or none at all. */
  datatype Failure = ExtractionError | TimeoutError | DecodingError | ConnectionError | Unhandled

  /** The exception a failed fetch raises; None for a page. */
  function FetchFailure(f: Fetch): (r: Option<Failure>)
    ensures r.None? <==> f.Page?
    ensures r == Some(Unhandled) <==> f.OtherFailure?
    ensures r != Some(ExtractionError)
  {
    match f
    case Page(_) => None
    case TimedOut => Some(TimeoutError)
    case ConnectionFailed => Some(ConnectionError)
    case DecodingFailed => Some(DecodingError)
    case OtherFailure => Some(Unhandled)
  }

  /** The title of one URL: the fetch, the regular-expression search (AttributeError
      when nothing matches), the length limit (IndexError), and the cleaning. */
  function TitleOf(url: string, web: Web): (r: Result<string, Failure>)
    ensures r.Ok? <==>
      && web.fetch(url).Page?
      && Search(web.fetch(url).text).Some?
      && |Search(web.fetch(url).text).value| < MaxTitle
    ensures r.Ok? ==> r.value == Clean(Search(web.fetch(url).text).value, web.unescape)
    ensures r.Ok? ==> '\n' !in r.value
    ensures r == Err(Unhandled) <==> web.fetch(url).OtherFailure?
  {
    var page := web.fetch(url);
    match FetchFailure(page)
    case Some(f) => Err(f)
    case None =>
      match Search(page.text)
      case None => Err(ExtractionError)
      case Some(raw) =>
        if |raw| >= MaxTitle then Err(ExtractionError)
        else Ok(Clean(raw, web.unescape))
  }

  function TitleBy(web: Web): string -> Result<string, Failure>
  {
    url => TitleOf(url, web)
  }

  /** The titles of a row's URLs: one per URL, in URL order, or the first exception. */
  function TitlesOf(urls: seq<string>, web: Web): (r: Result<seq<string>, Failure>)
    ensures r.Ok? <==> forall i :: 0 <= i < |urls| ==> TitleOf(urls[i], web).Ok?
    ensures r.Ok? ==>
      |r.value| == |urls| && forall i :: 0 <= i < |urls| ==> TitleOf(urls[i], web) == Ok(r.value[i])
    ensures r.Err? ==>
      exists i :: 0 <= i < |urls| && TitleOf(urls[i], web) == Err(r.error) &&
        forall j :: 0 <= j < i ==> TitleOf(urls[j], web).Ok?
  {
    TraverseOutcome(urls, TitleBy(web));
    Traverse(urls, TitleBy(web))
  }

  /** The `for url in row[1]` loop: fetch, search, check the length, clean, append;
      the first exception leaves the loop. */
  method CollectTitles(urls: seq<string>, web: Web) returns (r: Result<seq<string>, Failure>)
    ensures r == TitlesOf(urls, web)
  {
    var titles: seq<string> := [];
    for i := 0 to |urls|
      invariant Traverse(urls[..i], TitleBy(web)) == Ok(titles)
    {
      assert urls[..i + 1][..i] == urls[..i];
      var page := web.fetch(urls[i]);
      var failure := FetchFailure(page);
      if failure.Some? {
        TraverseStopsAtFailure(urls, TitleBy(web), i + 1);
        return Err(failure.value);
      }
      var found := Search(page.text);
      if found.None? || |found.value| >= MaxTitle {
        TraverseStopsAtFailure(urls, TitleBy(web), i + 1);
        return Err(ExtractionError);
      }
      var title := Clean(found.value, web.unescape);
      titles := titles + [title];
    }
    assert urls[..|urls|] == urls;
    return Ok(titles);
  }

  /** The row transform the loop applies, over the real network. */
  function Extractor(web: Web): seq<string> -> Result<seq<string>, Failure>
  {
    urls => TitlesOf(urls, web)
  }

  /** A stored row of the titles table. */
  datatype Entry = Entry(id: int, titles: seq<string>)

  /** The state of a run: the source's counters and resume flag, how it stands, the
      rows past the resume position, the rows inserted, the `progress` value at each
      batch commit, and how many inserts the last commit made durable. */
  datatype EnrichState = EnrichState(
    progress: int,
    skipped: int,
    resuming: bool,
    resumeId: int,
    status: Status,
    handled: seq<Row>,
    inserts: seq<Entry>,
    commits: seq<int>,
    durable: nat)

  function Init(cp: Checkpoint): EnrichState {
    EnrichState(0, 0, cp.resuming, cp.position, Running, [], [], [], 0)
  }

  /** What every state of a run satisfies: 0 <= skipped <= progress; fewer than Chunk
      inserts wait for a commit; a run still resuming has handled no row; and, unless
      it crashed, every handled row was either inserted or skipped. */
  ghost predicate Inv(st: EnrichState) {
    && 0 <= st.skipped <= st.progress
    && st.durable <= |st.inserts|
    && |st.inserts| - st.durable <= st.progress % Chunk
    && (st.resuming ==> st.handled == [] && st.inserts == [] && st.durable == 0 && st.commits == [])
    && (st.status != Crashed ==> |st.handled| == |st.inserts| + st.skipped)
  }

  lemma InitInv(cp: Checkpoint)
    ensures Inv(Init(cp))
  {
  }

  /** conn.commit(): what has been inserted so far becomes durable. */
  function Committed(st: EnrichState): EnrichState {
    st.(commits := st.commits + [st.progress], durable := |st.inserts|)
  }

  /** The `finally` block: count the row, and commit when the run is no longer resuming
      and the count is a multiple of Chunk. */
  function Ticked(st: EnrichState): EnrichState {
    var next := st.(progress := st.progress + 1);
    if !next.resuming && next.progress % Chunk == 0 then Committed(next) else next
  }

  /** One row of the inner `for row in rows` loop. */
  function RowSpec(st: EnrichState, row: Row, extract: seq<string> -> Result<seq<string>, Failure>): (r: EnrichState)
    ensures st.status != Running ==> r == st
    ensures st.status == Running ==> r.progress == st.progress + 1
    ensures r.status == st.status || (st.status == Running && r.status == Crashed)
    ensures r.resumeId == st.resumeId
    ensures r.resuming ==> st.resuming
  {
    if st.status != Running then st
    else if st.resuming then
      Ticked(st.(resuming := row.id != st.resumeId))
    else
      var seen := st.(handled := st.handled + [row]);
      if |row.urls| == 0 then Ticked(seen.(skipped := seen.skipped + 1))
      else Settle(seen, row.id, extract(row.urls))
  }

  /** The insert-or-skip after the URL loop, the handlers, and the `finally` block,
      once a row's titles or exception are known. */
  function Settle(seen: EnrichState, id: int, titles: Result<seq<string>, Failure>): EnrichState
  {
    match titles
    case Ok(ts) =>
      if |ts| > 0 then Ticked(seen.(inserts := seen.inserts + [Entry(id, ts)]))
      else Ticked(seen.(skipped := seen.skipped + 1))
    case Err(f) =>
      if f == Unhandled then Ticked(seen).(status := Crashed)
      else Ticked(seen.(skipped := seen.skipped + 1))
  }

  /** While resuming, a row is counted but never fetched, inserted or skipped, and the
      row whose id is the resume id is the last one passed over. */
  lemma RowPassesOver(st: EnrichState, row: Row, extract: seq<string> -> Result<seq<string>, Failure>)
    requires st.status == Running && st.resuming
    ensures var r := RowSpec(st, row, extract);
      && r.handled == st.handled && r.inserts == st.inserts && r.skipped == st.skipped
      && r.status == Running
      && (r.resuming <==> row.id != st.resumeId)
  {
  }

  /** Once active, a row is handled: an empty URL list, an exception some handler
      catches, or no titles is one skip and no insert; titles for every URL are one
      insert; an exception nothing catches is the Crashed end. */
  lemma RowActive(st: EnrichState, row: Row, extract: seq<string> -> Result<seq<string>, Failure>)
    requires st.status == Running && !st.resuming
    ensures var r := RowSpec(st, row, extract);
      var o := extract(row.urls);
      var inserted := row.urls != [] && o.Ok? && o.value != [];
      var crashed := row.urls != [] && o == Err(Unhandled);
      && r.handled == st.handled + [row]
      && r.inserts == st.inserts + (if inserted then [Entry(row.id, o.value)] else [])
      && r.skipped == st.skipped + (if inserted || crashed then 0 else 1)
      && (r.status == Crashed <==> crashed)
      && (r.status != Crashed ==> r.status == Running)
  {
  }

  /** Over the network, a handled row is stored exactly when its URL list is not empty
      and every URL yields a title; the stored entry then holds one cleaned title per
      URL, in URL order, so the `len(titles) > 0` test never fails. */
  lemma RowAllOrNothing(st: EnrichState, row: Row, web: Web)
    requires st.status == Running && !st.resuming
    ensures var r := RowSpec(st, row, Extractor(web));
      && (|r.inserts| == |st.inserts| + 1 <==>
          row.urls != [] && forall i :: 0 <= i < |row.urls| ==> TitleOf(row.urls[i], web).Ok?)
      && (|r.inserts| != |st.inserts| ==>
          && r.inserts == st.inserts + [r.inserts[|st.inserts|]]
          && r.inserts[|st.inserts|].id == row.id
          && |r.inserts[|st.inserts|].titles| == |row.urls|
          && forall i :: 0 <= i < |row.urls| ==>
               TitleOf(row.urls[i], web) == Ok(r.inserts[|st.inserts|].titles[i]))
      && (row.urls != [] && Extractor(web)(row.urls).Ok? ==> Extractor(web)(row.urls).value != [])
  {
    RowActive(st, row, Extractor(web));
  }

  /** The effect of one row on the resume flag, the handled rows and the commits, for
      a row after which the run goes on. */
  lemma RowRecord(st: EnrichState, row: Row, extract: seq<string> -> Result<seq<string>, Failure>)
    requires st.status == Running
    requires RowSpec(st, row, extract).status == Running
    ensures var r := RowSpec(st, row, extract);
      && (r.resuming <==> st.resuming && row.id != st.resumeId)
      && r.handled == st.handled + (if st.resuming then [] else [row])
      && r.inserts == st.inserts + (if st.resuming then [] else Stored(row, extract))
      && r.commits == st.commits + (if !r.resuming && r.progress % Chunk == 0 then [r.progress] else [])
  {
    if !st.resuming && |row.urls| != 0 {
      match extract(row.urls)
      case Ok(_) =>
      case Err(_) =>
    }
  }

  lemma RowInv(st: EnrichState, row: Row, extract: seq<string> -> Result<seq<string>, Failure>)
    requires Inv(st)
    ensures Inv(RowSpec(st, row, extract))
  {
    if st.status == Running && !st.resuming && |row.urls| != 0 {
      match extract(row.urls)
      case Ok(_) =>
      case Err(_) =>
    }
  }

  /** The rows the loops go through, one RowSpec per row; after a crash no further row
      is read. */
  function RowsSpec(st: EnrichState, rows: seq<Row>, extract: seq<string> -> Result<seq<string>, Failure>): (r: EnrichState)
    ensures r.status == st.status || (st.status == Running && r.status == Crashed)
    decreases |rows|
  {
    if rows == [] then st
    else RowSpec(RowsSpec(st, rows[..|rows| - 1], extract), rows[|rows| - 1], extract)
  }

  /** One more row of a sequence is one more RowSpec step. */
  lemma RowsNext(st: EnrichState, rows: seq<Row>, j: nat, extract: seq<string> -> Result<seq<string>, Failure>)
    requires j < |rows|
    ensures RowsSpec(st, rows[..j + 1], extract) == RowSpec(RowsSpec(st, rows[..j], extract), rows[j], extract)
  {
    assert rows[..j + 1][..j] == rows[..j];
  }

  /** After the loops: the unconditional final commit, reached only without a crash. */
  function Finish(st: EnrichState): (r: EnrichState)
    ensures r.status != Running
    ensures st.status == Running ==>
      r == st.(status := Finished, commits := st.commits + [st.progress], durable := |st.inserts|)
    ensures st.status != Running ==> r == st
  {
    if st.status == Running then Committed(st).(status := Finished) else st
  }

  lemma {:induction false} RowsAppend(st: EnrichState, a: seq<Row>, b: seq<Row>, extract: seq<string> -> Result<seq<string>, Failure>)
    ensures RowsSpec(st, a + b, extract) == RowsSpec(RowsSpec(st, a, extract), b, extract)
    decreases |b|
  {
    if b == [] {
      assert a + b == a;
    } else {
      var init := b[..|b| - 1];
      assert (a + b)[..|a + b| - 1] == a + init;
      RowsAppend(st, a, init, extract);
    }
  }

  /** After an uncaught exception no further row is read. */
  lemma {:induction false} RowsHalted(st: EnrichState, rows: seq<Row>, extract: seq<string> -> Result<seq<string>, Failure>)
    requires st.status != Running
    ensures RowsSpec(st, rows, extract) == st
    decreases |rows|
  {
    if rows != [] {
      RowsHalted(st, rows[..|rows| - 1], extract);
    }
  }

  /** Once a prefix of the rows has ended the run, the rest is never read. */
  lemma RowsPrefixHalted(st: EnrichState, rows: seq<Row>, k: nat, extract: seq<string> -> Result<seq<string>, Failure>)
    requires k <= |rows|
    requires RowsSpec(st, rows[..k], extract).status != Running
    ensures RowsSpec(st, rows, extract) == RowsSpec(st, rows[..k], extract)
  {
    assert rows == rows[..k] + rows[k..];
    RowsAppend(st, rows[..k], rows[k..], extract);
    RowsHalted(RowsSpec(st, rows[..k], extract), rows[k..], extract);
  }

  lemma {:induction false} RowsInv(st: EnrichState, rows: seq<Row>, extract: seq<string> -> Result<seq<string>, Failure>)
    requires Inv(st)
    ensures Inv(RowsSpec(st, rows, extract))
    decreases |rows|
  {
    if rows != [] {
      RowsInv(st, rows[..|rows| - 1], extract);
      RowInv(RowsSpec(st, rows[..|rows| - 1], extract), rows[|rows| - 1], extract);
    }
  }

  /** The index of the first row whose id is `id`, or `|rows|` when there is none. */
  function FirstIndexOf(rows: seq<Row>, id: int): (k: nat)
    ensures k <= |rows|
    ensures k < |rows| ==> rows[k].id == id
    ensures forall j :: 0 <= j < k ==> rows[j].id != id
  {
    if rows == [] then 0
    else
      var init := rows[..|rows| - 1];
      var k := FirstIndexOf(init, id);
      if k < |init| then k
      else if rows[|rows| - 1].id == id then |init|
      else |rows|
  }

  /** How many of `rows` a run passes over: those up to and including the first whose
      id is the resume id, or all of them when no id matches. */
  function PassOver(st: EnrichState, rows: seq<Row>): nat {
    if st.resuming then FirstIndexOf(rows, st.resumeId) + 1 else 0
  }

  /** One more row: while no row so far carries the resume id nothing is handled;
      afterwards the row is handled. */
  lemma PassOverExtend(st: EnrichState, rows: seq<Row>)
    requires rows != []
    ensures var init, x := rows[..|rows| - 1], rows[|rows| - 1];
      if st.resuming && FirstIndexOf(init, st.resumeId) == |init| then
        Drop(rows, PassOver(st, rows)) == [] && Drop(init, PassOver(st, init)) == []
      else
        Drop(rows, PassOver(st, rows)) == Drop(init, PassOver(st, init)) + [x]
  {
    var init, x := rows[..|rows| - 1], rows[|rows| - 1];
    if !(st.resuming && FirstIndexOf(init, st.resumeId) == |init|) {
      var n := PassOver(st, init);
      assert PassOver(st, rows) == n <= |init|;
      assert rows == init + [x];
      DropSnoc(init, x, n);
    }
  }

  /** The progress value at which the run first commits a batch. */
  function FirstCommitPoint(st: EnrichState, rows: seq<Row>): int {
    st.progress + (if st.resuming then FirstIndexOf(rows, st.resumeId) + 1 else 1)
  }

  /** A run that does not crash counts every row, and stays in resume mode exactly when
      no row carries the resume id. */
  lemma {:induction false} RowsCounts(st: EnrichState, rows: seq<Row>, extract: seq<string> -> Result<seq<string>, Failure>)
    requires st.status == Running
    requires RowsSpec(st, rows, extract).status == Running
    ensures var r := RowsSpec(st, rows, extract);
      && r.resumeId == st.resumeId
      && r.progress == st.progress + |rows|
      && (r.resuming <==> st.resuming && FirstIndexOf(rows, st.resumeId) == |rows|)
    decreases |rows|
  {
    if rows != [] {
      var init := rows[..|rows| - 1];
      RowsCounts(st, init, extract);
      RowRecord(RowsSpec(st, init, extract), rows[|rows| - 1], extract);
    }
  }

  /** ... handles exactly the rows after the ones it passes over ... */
  lemma {:induction false} RowsHandled(st: EnrichState, rows: seq<Row>, extract: seq<string> -> Result<seq<string>, Failure>)
    requires st.status == Running
    requires RowsSpec(st, rows, extract).status == Running
    ensures RowsSpec(st, rows, extract).handled == st.handled + Drop(rows, PassOver(st, rows))
    decreases |rows|
  {
    if rows != [] {
      var init := rows[..|rows| - 1];
      var x := rows[|rows| - 1];
      RowsHandled(st, init, extract);
      RowsCounts(st, init, extract);
      var mid := RowsSpec(st, init, extract);
      RowRecord(mid, x, extract);
      PassOverExtend(st, rows);
    }
  }

  /** The entry a handled row stores: its titles, when its URL list is not empty and
      yields a non-empty title list. */
  function Stored(row: Row, extract: seq<string> -> Result<seq<string>, Failure>): seq<Entry> {
    var o := extract(row.urls);
    if row.urls != [] && o.Ok? && o.value != [] then [Entry(row.id, o.value)] else []
  }

  /** The entries stored for `rows`, in row order. */
  function Entries(rows: seq<Row>, extract: seq<string> -> Result<seq<string>, Failure>): (r: seq<Entry>)
    ensures |r| <= |rows|
    decreases |rows|
  {
    if rows == [] then []
    else Entries(rows[..|rows| - 1], extract) + Stored(rows[|rows| - 1], extract)
  }

  lemma EntriesSnoc(rows: seq<Row>, x: Row, extract: seq<string> -> Result<seq<string>, Failure>)
    ensures Entries(rows + [x], extract) == Entries(rows, extract) + Stored(x, extract)
  {
    assert (rows + [x])[..|rows|] == rows;
  }

  /** ... stores exactly the entries of the rows it handles, in row order, and none of
      the rows it passes over ... */
  lemma {:induction false} RowsInserts(st: EnrichState, rows: seq<Row>, extract: seq<string> -> Result<seq<string>, Failure>)
    requires st.status == Running
    requires RowsSpec(st, rows, extract).status == Running
    ensures RowsSpec(st, rows, extract).inserts == st.inserts + Entries(Drop(rows, PassOver(st, rows)), extract)
    decreases |rows|
  {
    if rows != [] {
      var init := rows[..|rows| - 1];
      var x := rows[|rows| - 1];
      RowsInserts(st, init, extract);
      RowsCounts(st, init, extract);
      var mid := RowsSpec(st, init, extract);
      RowRecord(mid, x, extract);
      PassOverExtend(st, rows);
      var d := Drop(init, PassOver(st, init));
      assert RowsSpec(st, rows, extract) == RowSpec(mid, x, extract);
      if !mid.resuming {
        var added := Stored(x, extract);
        EntriesSnoc(d, x, extract);
        assert Entries(Drop(rows, PassOver(st, rows)), extract) == Entries(d, extract) + added;
        AppendAssoc(st.inserts, Entries(d, extract), added);
      }
    }
  }

  /** ... and commits at exactly the multiples of Chunk from FirstCommitPoint on. */
  lemma {:induction false} RowsCommits(st: EnrichState, rows: seq<Row>, extract: seq<string> -> Result<seq<string>, Failure>)
    requires st.status == Running
    requires RowsSpec(st, rows, extract).status == Running
    ensures var r := RowsSpec(st, rows, extract);
      r.commits == st.commits + Multiples(FirstCommitPoint(st, rows), r.progress, Chunk)
    decreases |rows|
  {
    if rows == [] {
      assert Multiples(FirstCommitPoint(st, rows), st.progress, Chunk) == [];
    } else {
      var init := rows[..|rows| - 1];
      var x := rows[|rows| - 1];
      RowsCommits(st, init, extract);
      RowsCounts(st, init, extract);
      var mid := RowsSpec(st, init, extract);
      RowRecord(mid, x, extract);
      var p := mid.progress;
      var lo := FirstCommitPoint(st, rows);
      if mid.resuming {
        assert Multiples(FirstCommitPoint(st, init), p, Chunk) == [];
        assert Multiples(lo, p, Chunk) == [];
      } else {
        assert lo == FirstCommitPoint(st, init);
      }
      MultiplesNext(lo, p, Chunk);
      assert !RowSpec(mid, x, extract).resuming <==> lo <= p + 1;
    }
  }

  /** A run of titles.py from the checkpoint it resolves, when it does not crash:
      `progress` ends at the number of rows; in resume mode every row up to and
      including the one whose id is `max(tweet_id)` is passed over (all rows when none
      matches) and every later row is handled, each inserted or skipped; batch commits
      happen at exactly the multiples of 10 after the rows passed over; and, with the
      final commit, the run ends Finished with exit status 0. */
  lemma ResolvedEnrichment(createFailed: bool, maxId: Option<int>, rows: seq<Row>, extract: seq<string> -> Result<seq<string>, Failure>)
    ensures var cp := FromMaxId(createFailed, maxId);
      var r := RowsSpec(Init(cp), rows, extract);
      var passed := if cp.resuming then FirstIndexOf(rows, cp.position) + 1 else 0;
      && Inv(r)
      && (r.status == Running ==>
        && r.progress == |rows|
        && r.handled == Drop(rows, passed)
        && |r.handled| == |r.inserts| + r.skipped
        && r.commits == Multiples(if cp.resuming then passed else 1, |rows|, Chunk)
        && Finish(r).commits == r.commits + [r.progress]
        && ExitCode(Finish(r).status) == 0)
  {
    var cp := FromMaxId(createFailed, maxId);
    var st := Init(cp);
    InitInv(cp);
    RowsInv(st, rows, extract);
    var r := RowsSpec(st, rows, extract);
    if r.status == Running {
      RowsCounts(st, rows, extract);
      RowsHandled(st, rows, extract);

      RowsCommits(st, rows, extract);
      assert PassOver(st, rows) == if cp.resuming then FirstIndexOf(rows, cp.position) + 1 else 0;
      assert FirstCommitPoint(st, rows) == if cp.resuming then FirstIndexOf(rows, cp.position) + 1 else 1;
    }
  }

  /** From the resolved checkpoint, a run that does not crash stores exactly the entries
      of the rows it handles, in row order: no row passed over is stored. */
  lemma ResolvedInserts(createFailed: bool, maxId: Option<int>, rows: seq<Row>, extract: seq<string> -> Result<seq<string>, Failure>)
    ensures var r := RowsSpec(Init(FromMaxId(createFailed, maxId)), rows, extract);
      r.status == Running ==> r.inserts == Entries(r.handled, extract)
  {
    var st := Init(FromMaxId(createFailed, maxId));
    var r := RowsSpec(st, rows, extract);
    if r.status == Running {
      RowsHandled(st, rows, extract);
      RowsInserts(st, rows, extract);
      var d := Drop(rows, PassOver(st, rows));
      assert r.handled == d;
      assert r.inserts == Entries(d, extract);
    }
  }

  /** An exception nothing catches ends the run Crashed: no later row is read, no final
      commit follows, and the process exits with status 1. */
  lemma CrashEnds(st: EnrichState, before: seq<Row>, row: Row, after: seq<Row>, extract: seq<string> -> Result<seq<string>, Failure>)
    requires RowsSpec(st, before, extract).status == Running && !RowsSpec(st, before, extract).resuming
    requires row.urls != [] && extract(row.urls) == Err(Unhandled)
    ensures var r := RowsSpec(st, before + [row] + after, extract);
      && r == RowSpec(RowsSpec(st, before, extract), row, extract)
      && r.status == Crashed
      && Finish(r) == r
      && ExitCode(r.status) == 1
  {
    RowsAppend(st, before + [row], after, extract);
    assert (before + [row])[..|before|] == before;
    RowsHalted(RowsSpec(st, before + [row], extract), after, extract);
  }

  /** `math.ceil(amount / chunk)`: how many fetchmany batches the outer loop asks for. */
  function Batches(amount: nat): (b: nat)
    ensures Chunk * b >= amount
    ensures b > 0 ==> Chunk * (b - 1) < amount
  {
    (amount + Chunk - 1) / Chunk
  }

  function Min(a: int, b: int): int {
    if a <= b then a else b
  }

  /** The rows those batches deliver: the first `Chunk * Batches(amount)`, or all of
      them when the table holds fewer. */
  function Fetched(rows: seq<Row>, amount: nat): (r: seq<Row>)
    ensures |r| == Min(|rows|, Chunk * Batches(amount))
    ensures r == rows[..|r|]
  {
    rows[..Min(|rows|, Chunk * Batches(amount))]
  }

  /** When `count(*)` agrees with the rows the select returns, every row is fetched. */
  lemma FetchedAll(rows: seq<Row>)
    ensures Fetched(rows, |rows|) == rows
  {
  }

  /** When the count falls short, the rows past the last whole batch are never read. */
  lemma FetchedShort(rows: seq<Row>, amount: nat)
    requires Chunk * Batches(amount) < |rows|
    ensures Fetched(rows, amount) == rows[..Chunk * Batches(amount)]
    ensures |Fetched(rows, amount)| < amount + Chunk
  {
  }

  /** A whole run of titles.py from its checkpoint. */
  function Enrichment(cp: Checkpoint, rows: seq<Row>, amount: nat, web: Web): EnrichState {
    Finish(RowsSpec(Init(cp), Fetched(rows, amount), Extractor(web)))
  }

  /** titles.py's run controller, with the counters and flag of the source. */
  class Enricher {
    var progress: int
    var skipped: int
    var resumeFlag: bool
    var status: Status
    const resumeId: int
    ghost var handled: seq<Row>
    ghost var inserts: seq<Entry>
    ghost var commits: seq<int>
    ghost var durable: nat
    /** The number of fetchmany calls made so far. */
    ghost var fetches: nat

    ghost function State(): EnrichState
      reads this
    {
      EnrichState(progress, skipped, resumeFlag, resumeId, status, handled, inserts, commits, durable)
    }

    constructor (cp: Checkpoint)
      ensures State() == Init(cp)
      ensures fetches == 0
    {
      progress, skipped := 0, 0;
      resumeFlag, resumeId := cp.resuming, cp.position;
      status := Running;
      handled, inserts, commits, durable := [], [], [], 0;
      fetches := 0;
    }

    /** conn.commit() */
    method Commit()
      modifies this
      ensures State() == Committed(old(State()))
      ensures fetches == old(fetches)
    {
      commits := commits + [progress];
      durable := |inserts|;
    }

    /** The `finally` block of the row loop. */
    method Finally()
      modifies this
      ensures State() == Ticked(old(State()))
      ensures fetches == old(fetches)
    {
      progress := progress + 1;
      if !resumeFlag && progress % Chunk == 0 {
        Commit();
      }
    }

    /** The body of `for row in rows`. */
    method Step(row: Row, web: Web)
      requires status == Running
      modifies this
      ensures State() == RowSpec(old(State()), row, Extractor(web))
      ensures fetches == old(fetches)
    {
      if resumeFlag {
        if row.id == resumeId {
          resumeFlag := false;
        }
        Finally();
        return;
      }
      Handle(row, web);
    }

    /** The `try` block over a row once resume mode is over, with its handlers and the
        `finally` block. */
    method Handle(row: Row, web: Web)
      requires status == Running && !resumeFlag
      modifies this
      ensures State() == RowSpec(old(State()), row, Extractor(web))
      ensures fetches == old(fetches)
    {
      handled := handled + [row];
      if |row.urls| == 0 {
        skipped := skipped + 1;
        Finally();
        return;
      }
      var titles := CollectTitles(row.urls, web);
      Apply(row.id, titles);
    }

    /** What follows the URL loop: the insert or skip, the handlers, and the
        `finally` block. */
    method Apply(id: int, titles: Result<seq<string>, Failure>)
      modifies this
      ensures State() == Settle(old(State()), id, titles)
      ensures fetches == old(fetches)
    {
      match titles
      case Ok(ts) =>
        if |ts| > 0 {
          inserts := inserts + [Entry(id, ts)];
        } else {
          skipped := skipped + 1;
        }
        Finally();
      case Err(f) =>
        if f == Unhandled {
          Finally();
          status := Crashed;
        } else {
          skipped := skipped + 1;
          Finally();
        }
    }

    /** The inner `for row in rows` loop over one fetchmany batch; an exception leaves
      it, and the rows after the crashing one are never read. */
    method RunBatch(batch: seq<Row>, web: Web)
      modifies this
      ensures State() == RowsSpec(old(State()), batch, Extractor(web))
      ensures fetches == old(fetches)
    {
      var j := 0;
      while j < |batch| && status == Running
        invariant 0 <= j <= |batch|
        invariant fetches == old(fetches)
        invariant State() == RowsSpec(old(State()), batch[..j], Extractor(web))
      {
        RowsNext(old(State()), batch, j, Extractor(web));
        Step(batch[j], web);
        j := j + 1;
      }
      if status != Running {
        RowsPrefixHalted(old(State()), batch, j, Extractor(web));
      } else {
        assert batch[..j] == batch;
      }
    }

    /** The batch loop over `math.ceil(amount / chunk)` fetchmany calls, each handing the
      next at most Chunk rows to RunBatch, and the final commit. Unless an exception
      ends it, the run makes exactly that many fetchmany calls. */
    method Run(rows: seq<Row>, amount: nat, web: Web)
      requires status == Running
      modifies this
      ensures State() == Finish(RowsSpec(old(State()), Fetched(rows, amount), Extractor(web)))
      ensures status == Finished ==> fetches == old(fetches) + Batches(amount)
    {
      var fetched := Fetched(rows, amount);
      var batches := Batches(amount);
      var index := 0;
      var cursor := 0;
      while index < batches && status == Running
        invariant 0 <= index <= batches
        invariant status == Running || status == Crashed
        invariant cursor == Min(|fetched|, Chunk * index)
        invariant fetches == old(fetches) + index
        invariant State() == RowsSpec(old(State()), fetched[..cursor], Extractor(web))
      {
        var next := Min(|fetched|, cursor + Chunk);
        var batch := fetched[cursor..next];
        fetches := fetches + 1;
        RunBatch(batch, web);
        PrefixSplit(fetched, cursor, next);
        RowsAppend(old(State()), fetched[..cursor], batch, Extractor(web));
        cursor := next;
        index := index + 1;
      }
      if status != Running {
        RowsPrefixHalted(old(State()), fetched, cursor, Extractor(web));
      } else {
        assert fetched[..cursor] == fetched;
        Commit();
        status := Finished;
      }
    }
  }

  /** What the run reports: processed and skipped counts, the row count, and the exit
      status. */
  datatype Summary = Summary(progress: int, skipped: int, amount: int, exitCode: int)

  /** titles.py from table creation to exit. */
  method EnrichTable(createFailed: bool, maxId: Option<int>, amount: nat, rows: seq<Row>, web: Web) returns (s: Summary)
    ensures var r := Enrichment(FromMaxId(createFailed, maxId), rows, amount, web);
      s == Summary(r.progress, r.skipped, amount, ExitCode(r.status))
  {
    var cp := FromMaxId(createFailed, maxId);
    var run := new Enricher(cp);
    run.Run(rows, amount, web);
    s := Summary(run.progress, run.skipped, amount, ExitCode(run.status));
  }
}

=== FILE: ingest.dfy ===
/** parse.py: resumable, checkpointed ingestion of a newline-delimited file of tweets. */
module Ingest {
  import opened Wrappers
  import opened Json
  import opened Tweets
  import opened Cadence
  import opened Checkpoints

  /** A commit falls due every this many non-blank lines. */
  const BatchSize: nat := 1000

  /** The separator line between records: neither counted nor parsed. */
  const Blank: string := "\n"

  /** file_len: the loop leaves `i` at the index of the last line, or at its initial
      0 when the file is empty, and the function returns `i + 1`. */
  method FileLen(lines: seq<string>) returns (n: int)
    ensures n == if lines == [] then 1 else |lines|
  {
    var i := 0;
    var k := 0;
    while k < |lines|
      invariant 0 <= k <= |lines|
      invariant i == if k == 0 then 0 else k - 1
    {
      i := k;
      k := k + 1;
    }
    n := i + 1;
  }

  /** The lines of a file other than the separator lines, in file order. */
  function NonBlank(lines: seq<string>): (r: seq<string>)
    ensures forall l :: l in r <==> l in lines && l != Blank
    ensures |r| <= |lines|
  {
    if lines == [] then []
    else
      var init := lines[..|lines| - 1];
      assert lines == init + [lines[|lines| - 1]];
      NonBlank(init) + (if lines[|lines| - 1] == Blank then [] else [lines[|lines| - 1]])
  }

  /** The file layout the progress total assumes: every record followed by one separator line. */
  function Separated(records: seq<string>): (lines: seq<string>)
    ensures |lines| == 2 * |records|
  {
    if records == [] then []
    else Separated(records[..|records| - 1]) + [records[|records| - 1], Blank]
  }

  /** On that layout the separators are exactly the blank lines, and the progress total
      `file_len // 2` is the number of records. */
  lemma {:induction false} SeparatedAmount(records: seq<string>)
    requires forall r :: r in records ==> r != Blank
    ensures NonBlank(Separated(records)) == records
    ensures (if Separated(records) == [] then 1 else |Separated(records)|) / 2 == |records|
    decreases |records|
  {
    if records != [] {
      var init := records[..|records| - 1];
      var last := records[|records| - 1];
      assert forall r :: r in init ==> r in records;
      SeparatedAmount(init);
      var lines := Separated(records);
      var front := Separated(init) + [last];
      assert lines == front + [Blank];
      assert lines[..|lines| - 1] == front;
      assert NonBlank(lines) == NonBlank(front);
      assert front[..|front| - 1] == Separated(init);
      assert last in records;
      assert NonBlank(front) == NonBlank(Separated(init)) + [last];
      assert records == init + [last];
    }
  }

  /** When the last record lacks its separator the total undercounts by one. */
  lemma UnterminatedAmount(records: seq<string>)
    requires records != []
    ensures var lines := Separated(records)[..2 * |records| - 1];
      (if lines == [] then 1 else |lines|) / 2 == |records| - 1
  {
  }

  /** Outside collaborators of one line: json.loads (None is a JSONDecodeError), the
      library calls of the projection, and the store, which accepts a row or rejects
      it with DatabaseError, DataError or InternalError. */
  datatype Env = Env(decode: string -> Option<Json>, lib: Library, accepts: Tweet -> bool)

  /** How the `try` block over one line ends: the INSERT is issued; a JSONDecodeError or
      KeyError is counted as a skip; the store rejects the row (fatal); or an exception
      nothing catches propagates (TypeError, strptime's ValueError). */
  datatype Outcome = Insert(tweet: Tweet) | Skip(error: Error) | Reject(tweet: Tweet) | Crash(error: Error)

  function Classify(line: string, env: Env): (o: Outcome)
    ensures o.Skip? <==> env.decode(line).None? || Parse(env.decode(line).value, env.lib) == Err(KeyError)
    ensures o.Insert? || o.Reject? ==>
      env.decode(line).Some? && Parse(env.decode(line).value, env.lib) == Ok(o.tweet)
    ensures o.Insert? ==> env.accepts(o.tweet)
    ensures o.Reject? ==> !env.accepts(o.tweet)
    ensures env.decode(line).Some? && Parse(env.decode(line).value, env.lib).Ok? ==>
      var t := Parse(env.decode(line).value, env.lib).value;
      o == (if env.accepts(t) then Insert(t) else Reject(t))
    ensures o.Crash? <==>
      env.decode(line).Some? && Parse(env.decode(line).value, env.lib).Err? &&
      Parse(env.decode(line).value, env.lib).error != KeyError
    ensures o.Crash? ==> env.decode(line).Some? && Parse(env.decode(line).value, env.lib) == Err(o.error)
    ensures o.Crash? ==> o.error in {TypeError, ValueError}
  {
    match env.decode(line)
    case None => Skip(DecodeError)
    case Some(v) =>
      match Parse(v, env.lib)
      case Ok(t) => if env.accepts(t) then Insert(t) else Reject(t)
      case Err(e) => ParseErrors(v, env.lib); if e == KeyError then Skip(e) else Crash(e)
  }

  /** The `try` block's decisions for one line: json.loads (a failure is caught as a
      skip), the projection (a KeyError is caught as a skip, any other exception
      escapes), and the filter that either inserts the row or rejects it. */
  method ClassifyLine(line: string, env: Env) returns (o: Outcome)
    ensures o == Classify(line, env)
  {
    var decoded := env.decode(line);
    if decoded.None? {
      return Skip(DecodeError);
    }
    var tweet := ParseTweet(decoded.value, env.lib);
    match tweet
    case Err(e) =>
      o := if e == KeyError then Skip(e) else Crash(e);
    case Ok(t) =>
      o := if env.accepts(t) then Insert(t) else Reject(t);
  }

  /** The transform the loop applies to every line it does not pass over. */
  function Transform(env: Env): string -> Outcome
  {
    line => Classify(line, env)
  }

  /** The state of a run: the source's counters and resume flag, how it stands, the
      lines handed to json.loads, the rows inserted, the `progress` value at each
      batch or fatal commit, and how many inserts the last commit made durable. */
  datatype IngestState = IngestState(
    progress: int,
    skipped: int,
    resuming: bool,
    resumeCount: int,
    status: Status,
    parsed: seq<string>,
    inserts: seq<Tweet>,
    commits: seq<int>,
    durable: nat)

  function Init(cp: Checkpoint): IngestState {
    IngestState(0, 0, cp.resuming, cp.position, Running, [], [], [], 0)
  }

  /** What every state of a run satisfies: 0 <= skipped <= progress; at most
      `progress % BatchSize` inserts, so fewer than BatchSize, are not yet committed;
      and a run still resuming has inserted nothing and not gone past its checkpoint. */
  ghost predicate Inv(st: IngestState) {
    && 0 <= st.skipped <= st.progress
    && st.durable <= |st.inserts|
    && |st.inserts| - st.durable <= st.progress % BatchSize
    && (st.resuming ==> st.parsed == [] && st.inserts == [] && st.durable == 0 && st.commits == [] && st.progress <= st.resumeCount)
  }

  lemma InitInv(cp: Checkpoint)
    requires cp.position >= 0
    ensures Inv(Init(cp))
  {
  }

  /** conn.commit(): what has been inserted so far becomes durable. */
  function Committed(st: IngestState): IngestState {
    st.(commits := st.commits + [st.progress], durable := |st.inserts|)
  }

  /** The `finally` block: count the line, and commit when the count reaches a multiple
      of BatchSize and the run is no longer resuming. */
  function Ticked(st: IngestState): IngestState {
    var next := st.(progress := st.progress + 1);
    if next.progress % BatchSize == 0 && !next.resuming then Committed(next) else next
  }

  /** One line of the `for line in data_file` loop. */
  function StepSpec(st: IngestState, line: string, transform: string -> Outcome): (r: IngestState)
    ensures line == Blank || st.status != Running ==> r == st
    ensures st.status == Running && line != Blank ==> r.progress == st.progress + 1
    ensures r.status == Running ==> st.status == Running
    ensures r.resumeCount == st.resumeCount
    ensures r.resuming ==> st.resuming
  {
    if st.status != Running || line == Blank then st
    else if st.resuming then
      Ticked(st.(resuming := st.progress != st.resumeCount))
    else
      Resolve(st.(parsed := st.parsed + [line]), transform(line))
  }

  /** The handlers and the `finally` block, once a line's outcome is known. */
  function Resolve(read: IngestState, o: Outcome): IngestState
  {
    match o
    case Insert(t) => Ticked(read.(inserts := read.inserts + [t]))
    case Skip(_) => Ticked(read.(skipped := read.skipped + 1))
    case Reject(_) => Ticked(Committed(read.(skipped := read.skipped + 1))).(status := Aborted)
    case Crash(_) => Ticked(read).(status := Crashed)
  }

  /** While resuming, a line is counted but never parsed, inserted or skipped. */
  lemma StepPassesOver(st: IngestState, line: string, transform: string -> Outcome)
    requires st.status == Running && st.resuming && line != Blank
    ensures var r := StepSpec(st, line, transform);
      && r.parsed == st.parsed && r.inserts == st.inserts && r.skipped == st.skipped
      && r.status == Running
      && (r.resuming <==> st.progress != st.resumeCount)
  {
  }

  /** Once active, a line is parsed; a decode failure or missing key is one skip and
      no insert; an accepted row is one insert; a rejected row is one skip, a commit
      before the `finally` block, and the Aborted end; any other exception is the
      Crashed end. */
  lemma StepActive(st: IngestState, line: string, transform: string -> Outcome)
    requires st.status == Running && !st.resuming && line != Blank
    ensures var r := StepSpec(st, line, transform);
      var o := transform(line);
      && r.parsed == st.parsed + [line]
      && r.skipped == st.skipped + (if o.Skip? || o.Reject? then 1 else 0)
      && r.inserts == st.inserts + (if o.Insert? then [o.tweet] else [])
      && (r.status == Aborted <==> o.Reject?)
      && (r.status == Crashed <==> o.Crash?)
      && (o.Reject? ==> |r.commits| > |st.commits| && r.commits[|st.commits|] == st.progress)
  {
  }

  /** The effect of one non-blank line on the resume flag, the parsed lines and the
      commits, for a line after which the run goes on. */
  lemma StepRecord(st: IngestState, line: string, transform: string -> Outcome)
    requires st.status == Running && line != Blank
    requires StepSpec(st, line, transform).status == Running
    ensures var r := StepSpec(st, line, transform);
      && (r.resuming <==> st.resuming && st.progress != st.resumeCount)
      && r.parsed == st.parsed + (if st.resuming then [] else [line])
      && r.inserts == st.inserts + (if st.resuming then [] else Accepted(transform(line)))
      && r.commits == st.commits + (if !r.resuming && r.progress % BatchSize == 0 then [r.progress] else [])
  {
    if !st.resuming {
      match transform(line)
      case Insert(t) =>
      case Skip(_) =>
      case Reject(_) =>
      case Crash(_) =>
    }
  }

  lemma StepInv(st: IngestState, line: string, transform: string -> Outcome)
    requires Inv(st)
    ensures Inv(StepSpec(st, line, transform))
  {
    if st.status == Running && line != Blank && !st.resuming {
      match transform(line)
      case Insert(t) =>
      case Skip(_) =>
      case Reject(_) =>
      case Crash(_) =>
    }
  }

  /** The loop over the lines of the file, one StepSpec per line; once the run has ended
      no further line is read. */
  function RunSpec(st: IngestState, lines: seq<string>, transform: string -> Outcome): IngestState
    decreases |lines|
  {
    if lines == [] then st
    else StepSpec(RunSpec(st, lines[..|lines| - 1], transform), lines[|lines| - 1], transform)
  }

  /** After the loop: the unconditional final commit, reached only when no exit happened. */
  function Finish(st: IngestState): (r: IngestState)
    ensures r.status != Running
    ensures st.status == Running ==>
      r == st.(status := Finished, commits := st.commits + [st.progress], durable := |st.inserts|)
    ensures st.status != Running ==> r == st
  {
    if st.status == Running then Committed(st).(status := Finished) else st
  }

  /** A whole run of parse.py from its checkpoint. */
  function Ingestion(cp: Checkpoint, lines: seq<string>, env: Env): IngestState {
    Finish(RunSpec(Init(cp), lines, Transform(env)))
  }

  lemma {:induction false} RunAppend(st: IngestState, a: seq<string>, b: seq<string>, transform: string -> Outcome)
    ensures RunSpec(st, a + b, transform) == RunSpec(RunSpec(st, a, transform), b, transform)
    decreases |b|
  {
    if b == [] {
      assert a + b == a;
    } else {
      var init := b[..|b| - 1];
      assert (a + b)[..|a + b| - 1] == a + init;
      RunAppend(st, a, init, transform);
    }
  }

  /** After sys.exit(-2) or an uncaught exception no further line is read. */
  lemma {:induction false} RunHalted(st: IngestState, lines: seq<string>, transform: string -> Outcome)
    requires st.status != Running
    ensures RunSpec(st, lines, transform) == st
    decreases |lines|
  {
    if lines != [] {
      RunHalted(st, lines[..|lines| - 1], transform);
    }
  }

  lemma {:induction false} RunInv(st: IngestState, lines: seq<string>, transform: string -> Outcome)
    requires Inv(st)
    ensures Inv(RunSpec(st, lines, transform))
    decreases |lines|
  {
    if lines != [] {
      RunInv(st, lines[..|lines| - 1], transform);
      StepInv(RunSpec(st, lines[..|lines| - 1], transform), lines[|lines| - 1], transform);
    }
  }

  /** Separator lines change nothing: the run is the run over the non-blank lines. */
  lemma {:induction false} RunIgnoresBlank(st: IngestState, lines: seq<string>, transform: string -> Outcome)
    ensures RunSpec(st, lines, transform) == RunSpec(st, NonBlank(lines), transform)
    decreases |lines|
  {
    if lines != [] {
      var init := lines[..|lines| - 1];
      var last := lines[|lines| - 1];
      RunIgnoresBlank(st, init, transform);
      assert lines[..|lines| - 1] == init;
      if last != Blank {
        var nb := NonBlank(init) + [last];
        assert NonBlank(lines) == nb;
        assert nb[..|nb| - 1] == NonBlank(init);
      } else {
        assert NonBlank(lines) == NonBlank(init);
      }
    }
  }

  /** The progress value at which the run first commits a batch: just past the
      checkpoint line when resuming, the next line otherwise. */
  function FirstCommitPoint(st: IngestState): int {
    if st.resuming then st.resumeCount + 1 else st.progress + 1
  }

  /** How many more non-blank lines a resuming run passes over: every line up to and
      including the one read when `progress == resume_count`. */
  function PassOver(st: IngestState): int {
    if st.resuming then st.resumeCount - st.progress + 1 else 0
  }

  /** Over non-blank lines, a run that does not exit counts every line and stays in
      resume mode for exactly the first PassOver(st) - 1 of them. */
  lemma {:induction false} RunCounts(st: IngestState, ls: seq<string>, transform: string -> Outcome)
    requires Inv(st) && st.status == Running
    requires forall l :: l in ls ==> l != Blank
    requires RunSpec(st, ls, transform).status == Running
    ensures var r := RunSpec(st, ls, transform);
      && r.resumeCount == st.resumeCount
      && r.progress == st.progress + |ls|
      && (r.resuming <==> |ls| < PassOver(st))
    decreases |ls|
  {
    if ls != [] {
      var init := ls[..|ls| - 1];
      var x := ls[|ls| - 1];
      assert x in ls;
      assert forall l :: l in init ==> l in ls;
      RunCounts(st, init, transform);
      StepRecord(RunSpec(st, init, transform), x, transform);
    }
  }

  /** ... passes over the first PassOver(st) lines without parsing them and parses
      every later line. */
  lemma {:induction false} RunParses(st: IngestState, ls: seq<string>, transform: string -> Outcome)
    requires Inv(st) && st.status == Running
    requires forall l :: l in ls ==> l != Blank
    requires RunSpec(st, ls, transform).status == Running
    ensures RunSpec(st, ls, transform).parsed == st.parsed + Drop(ls, PassOver(st))
    decreases |ls|
  {
    if ls != [] {
      var init := ls[..|ls| - 1];
      var x := ls[|ls| - 1];
      assert x in ls;
      assert forall l :: l in init ==> l in ls;
      RunParses(st, init, transform);
      RunCounts(st, init, transform);
      var mid := RunSpec(st, init, transform);
      StepRecord(mid, x, transform);
      if !mid.resuming {
        DropLast(ls, PassOver(st));
      }
    }
  }

  /** The tweet an outcome stores, if any. */
  function Accepted(o: Outcome): seq<Tweet> {
    if o.Insert? then [o.tweet] else []
  }

  /** The tweets the store accepts from `ls`, in line order. */
  function Inserted(ls: seq<string>, transform: string -> Outcome): (r: seq<Tweet>)
    ensures |r| <= |ls|
    decreases |ls|
  {
    if ls == [] then []
    else Inserted(ls[..|ls| - 1], transform) + Accepted(transform(ls[|ls| - 1]))
  }

  lemma InsertedSnoc(ls: seq<string>, x: string, transform: string -> Outcome)
    ensures Inserted(ls + [x], transform) == Inserted(ls, transform) + Accepted(transform(x))
  {
    assert (ls + [x])[..|ls|] == ls;
  }

  /** ... inserts exactly the accepted tweets of the lines it parses, in line order, and
      none of the lines it passes over ... */
  lemma {:induction false} RunInserts(st: IngestState, ls: seq<string>, transform: string -> Outcome)
    requires Inv(st) && st.status == Running
    requires forall l :: l in ls ==> l != Blank
    requires RunSpec(st, ls, transform).status == Running
    ensures RunSpec(st, ls, transform).inserts == st.inserts + Inserted(Drop(ls, PassOver(st)), transform)
    decreases |ls|
  {
    if ls == [] {
      assert Inserted(Drop(ls, PassOver(st)), transform) == [];
    } else {
      var init := ls[..|ls| - 1];
      var x := ls[|ls| - 1];
      assert x in ls;
      assert forall l :: l in init ==> l in ls;
      RunInserts(st, init, transform);
      RunCounts(st, init, transform);
      var mid := RunSpec(st, init, transform);
      StepRecord(mid, x, transform);
      var n := PassOver(st);
      assert RunSpec(st, ls, transform) == StepSpec(mid, x, transform);
      if mid.resuming {
        assert Drop(ls, n) == [] && Drop(init, n) == [];
      } else {
        var before, added := Inserted(Drop(init, n), transform), Accepted(transform(x));
        DropLast(ls, n);
        InsertedSnoc(Drop(init, n), x, transform);
        assert Inserted(Drop(ls, n), transform) == before + added;
        AppendAssoc(st.inserts, before, added);
      }
    }
  }

  /** ... and commits at exactly the multiples of BatchSize from FirstCommitPoint on. */
  lemma {:induction false} RunCommits(st: IngestState, ls: seq<string>, transform: string -> Outcome)
    requires Inv(st) && st.status == Running
    requires forall l :: l in ls ==> l != Blank
    requires RunSpec(st, ls, transform).status == Running
    ensures var r := RunSpec(st, ls, transform);
      r.commits == st.commits + Multiples(FirstCommitPoint(st), r.progress, BatchSize)
    decreases |ls|
  {
    if ls == [] {
      assert Multiples(FirstCommitPoint(st), st.progress, BatchSize) == [];
    } else {
      var init := ls[..|ls| - 1];
      var x := ls[|ls| - 1];
      assert x in ls;
      assert forall l :: l in init ==> l in ls;
      RunCommits(st, init, transform);
      RunCounts(st, init, transform);
      var mid := RunSpec(st, init, transform);
      StepRecord(mid, x, transform);
      var lo := FirstCommitPoint(st);
      var p := mid.progress;
      MultiplesNext(lo, p, BatchSize);
      assert !StepSpec(mid, x, transform).resuming <==> lo <= p + 1;
    }
  }

  /** A run from the checkpoint parse.py resolves, when it does not exit: `progress`
      ends at the number of non-blank lines; in resume mode the first `count + 1`
      non-blank lines are never parsed and every later one is; batch commits happen at
      exactly the multiples of 1000 after the lines passed over; and, with the final
      commit, the run ends Finished with exit status 0. */
  lemma ResolvedRun(createFailed: bool, count: nat, lines: seq<string>, transform: string -> Outcome)
    ensures var cp := FromRowCount(createFailed, count);
      var r := RunSpec(Init(cp), lines, transform);
      var passed := if cp.resuming then count + 1 else 0;
      && Inv(r)
      && (r.status == Running ==>
        && r.progress == |NonBlank(lines)|
        && r.parsed == Drop(NonBlank(lines), passed)
        && r.commits == Multiples(if cp.resuming then count + 1 else 1, r.progress, BatchSize)
        && Finish(r).commits == r.commits + [r.progress]
        && Finish(r).status == Finished)
  {
    var cp := FromRowCount(createFailed, count);
    var st := Init(cp);
    InitInv(cp);
    RunInv(st, lines, transform);
    RunIgnoresBlank(st, lines, transform);
    var r := RunSpec(st, lines, transform);
    if r.status == Running {
      RunCounts(st, NonBlank(lines), transform);
      RunParses(st, NonBlank(lines), transform);
      RunCommits(st, NonBlank(lines), transform);
      assert PassOver(st) == if cp.resuming then count + 1 else 0;
      assert FirstCommitPoint(st) == if cp.resuming then count + 1 else 1;
    }
  }

  /** From the resolved checkpoint, a run that does not exit inserts exactly the
      accepted tweets of the lines it parses, in line order: no line passed over in
      resume mode is inserted. */
  lemma ResolvedInserts(createFailed: bool, count: nat, lines: seq<string>, transform: string -> Outcome)
    ensures var r := RunSpec(Init(FromRowCount(createFailed, count)), lines, transform);
      r.status == Running ==> r.inserts == Inserted(r.parsed, transform)
  {
    var cp := FromRowCount(createFailed, count);
    var st := Init(cp);
    InitInv(cp);
    RunIgnoresBlank(st, lines, transform);
    var r := RunSpec(st, lines, transform);
    if r.status == Running {
      RunParses(st, NonBlank(lines), transform);
      RunInserts(st, NonBlank(lines), transform);
      var d := Drop(NonBlank(lines), PassOver(st));
      assert r.parsed == d;
      assert r.inserts == Inserted(d, transform);
    }
  }

  /** A store rejection ends the run Aborted: nothing after that line is read, no final
      commit follows, and the process exits with -2. */
  lemma RejectionAborts(st: IngestState, before: seq<string>, line: string, after: seq<string>, transform: string -> Outcome)
    requires RunSpec(st, before, transform).status == Running && !RunSpec(st, before, transform).resuming
    requires line != Blank && transform(line).Reject?
    ensures var r := RunSpec(st, before + [line] + after, transform);
      && r == StepSpec(RunSpec(st, before, transform), line, transform)
      && r.status == Aborted
      && Finish(r) == r
      && ExitCode(r.status) == -2
  {
    RunAppend(st, before + [line], after, transform);
    assert (before + [line])[..|before|] == before;
    RunHalted(RunSpec(st, before + [line], transform), after, transform);
  }

  /** parse.py's run controller, with the counters and flag of the source. */
  class Ingestor {
    var progress: int
    var skipped: int
    var resumeFlag: bool
    var status: Status
    const resumeCount: int
    ghost var parsed: seq<string>
    ghost var inserts: seq<Tweet>
    ghost var commits: seq<int>
    ghost var durable: nat

    ghost function State(): IngestState
      reads this
    {
      IngestState(progress, skipped, resumeFlag, resumeCount, status, parsed, inserts, commits, durable)
    }

    constructor (cp: Checkpoint)
      ensures State() == Init(cp)
    {
      progress, skipped := 0, 0;
      resumeFlag, resumeCount := cp.resuming, cp.position;
      status := Running;
      parsed, inserts, commits, durable := [], [], [], 0;
    }

    /** conn.commit() */
    method Commit()
      modifies this
      ensures State() == Committed(old(State()))
    {
      commits := commits + [progress];
      durable := |inserts|;
    }

    /** The `finally` block of the loop body. */
    method Finally()
      modifies this
      ensures State() == Ticked(old(State()))
    {
      progress := progress + 1;
      if progress % BatchSize == 0 {
        if !resumeFlag {
          Commit();
        }
      }
    }

    /** The body of `for line in data_file`. */
    method Step(line: string, env: Env)
      requires status == Running
      modifies this
      ensures State() == StepSpec(old(State()), line, Transform(env))
    {
      if line == Blank {
        return;
      }
      if resumeFlag {
        if progress == resumeCount {
          resumeFlag := false;
        }
        Finally();
        return;
      }
      Handle(line, env);
    }

    /** The `try` block over a line once resume mode is over, with its handlers and
        the `finally` block. */
    method Handle(line: string, env: Env)
      requires status == Running && !resumeFlag && line != Blank
      modifies this
      ensures State() == StepSpec(old(State()), line, Transform(env))
    {
      parsed := parsed + [line];
      var outcome := ClassifyLine(line, env);
      Apply(outcome);
    }

    /** What the handlers and the `finally` block do with a line's outcome. */
    method Apply(outcome: Outcome)
      modifies this
      ensures State() == Resolve(old(State()), outcome)
    {
      match outcome
      case Skip(_) =>
        skipped := skipped + 1;
        Finally();
      case Crash(_) =>
        Finally();
        status := Crashed;
      case Insert(t) =>
        inserts := inserts + [t];
        Finally();
      case Reject(_) =>
        skipped := skipped + 1;
        Commit();
        Finally();
        status := Aborted;
    }

    /** The loop over the file followed by the final commit. */
    method Run(lines: seq<string>, env: Env)
      modifies this
      ensures State() == Finish(RunSpec(old(State()), lines, Transform(env)))
    {
      var i := 0;
      while i < |lines| && status == Running
        invariant 0 <= i <= |lines|
        invariant State() == RunSpec(old(State()), lines[..i], Transform(env))
      {
        assert lines[..i + 1][..i] == lines[..i];
        Step(lines[i], env);
        i := i + 1;
      }
      assert lines == lines[..i] + lines[i..];
      RunAppend(old(State()), lines[..i], lines[i..], Transform(env));
      if status != Running {
        RunHalted(State(), lines[i..], Transform(env));
      }
      if status == Running {
        Commit();
        status := Finished;
      }
    }
  }

  /** What the run reports: processed and skipped counts, the progress total, and the
      exit status. */
  datatype Summary = Summary(progress: int, skipped: int, amount: int, exitCode: int)

  /** parse.py from table creation to exit. */
  method IngestFile(createFailed: bool, count: nat, lines: seq<string>, env: Env) returns (s: Summary)
    ensures var r := Ingestion(FromRowCount(createFailed, count), lines, env);
      s == Summary(r.progress, r.skipped, (if lines == [] then 1 else |lines|) / 2, ExitCode(r.status))
  {
    var cp := FromRowCount(createFailed, count);
    var run := new Ingestor(cp);
    var n := FileLen(lines);
    var amount := n / 2;
    run.Run(lines, env);
    s := Summary(run.progress, run.skipped, amount, ExitCode(run.status));
  }
}

=== FILE: json.dfy ===
/** Values as json.loads returns them, and the Python operations parse.py applies to them. */
module Json {
  import opened Wrappers

  /** None, bool, int, str, list or dict. Floating-point numbers are not modelled. */
  datatype Json =
    | JNull
    | JBool(b: bool)
    | JNum(n: int)
    | JStr(s: string)
    | JArr(items: seq<Json>)
    | JObj(fields: map<string, Json>)

  /** The exceptions that reading one record can raise. */
  datatype Error = DecodeError | KeyError | TypeError | ValueError

  /** Python truthiness, as tested by `if v:`. */
  predicate Truthy(v: Json) {
    match v
    case JNull => false
    case JBool(b) => b
    case JNum(n) => n != 0
    case JStr(s) => s != ""
    case JArr(a) => a != []
    case JObj(m) => m != map[]
  }

  /** `v[key]` with a str key: a dict lookup that raises KeyError when the key is
      absent; subscripting anything else by a str raises TypeError. */
  function Index(v: Json, key: string): (r: Result<Json, Error>)
    ensures r.Ok? <==> v.JObj? && key in v.fields
    ensures r.Ok? ==> r.value == v.fields[key]
    ensures r == Err(KeyError) <==> v.JObj? && key !in v.fields
    ensures r.Err? ==> r.error in {KeyError, TypeError}
  {
    match v
    case JObj(m) => if key in m then Ok(m[key]) else Err(KeyError)
    case _ => Err(TypeError)
  }

  /** The elements a `for x in v: ... x[key] ...` loop sees. A list yields its items.
      An empty dict or str yields nothing. A non-empty dict or str yields str keys or
      characters, and subscripting the first of them by a str raises TypeError; None,
      bool and int are not iterable (TypeError). */
  function Iterate(v: Json): (r: Result<seq<Json>, Error>)
    ensures v.JArr? ==> r == Ok(v.items)
    ensures r.Ok? && r.value != [] ==> v.JArr?
    ensures r.Err? ==> r.error == TypeError
    ensures r.Ok? <==> v.JArr? || v == JObj(map[]) || v == JStr("")
  {
    match v
    case JArr(a) => Ok(a)
    case JObj(m) => if m == map[] then Ok([]) else Err(TypeError)
    case JStr(s) => if s == "" then Ok([]) else Err(TypeError)
    case _ => Err(TypeError)
  }
}

=== FILE: title_text.dfy ===
/** The title search and cleaning titles.py applies to a fetched page. */
module TitleText {
  import opened Wrappers

  const Open: string := "<title>"
  const Close: string := "</title>"

  /** The characters the cleaning strips from both ends of a title. */
  const Trimmed: set<char> := {' ', '\t', '\r'}

  /** ASCII lower-casing: the case folding the model gives re.IGNORECASE. */
  function Lower(c: char): char {
    if 'A' <= c <= 'Z' then (c as int - 'A' as int + 'a' as int) as char else c
  }

  /** The lower-case pattern `pat` occurs in `s` at `k`, ignoring ASCII case. */
  predicate MatchesAt(s: string, pat: string, k: int) {
    0 <= k && k + |pat| <= |s| && forall m :: 0 <= m < |pat| ==> Lower(s[k + m]) == pat[m]
  }

  /** The first position at or after `from` where `pat` occurs, ignoring case. */
  function FindFrom(s: string, pat: string, from: nat): (r: Option<nat>)
    requires pat != []
    ensures r.Some? ==> from <= r.value && MatchesAt(s, pat, r.value)
    ensures r.Some? ==> forall k :: from <= k < r.value ==> !MatchesAt(s, pat, k)
    ensures r.None? ==> forall k :: from <= k ==> !MatchesAt(s, pat, k)
    decreases |s| - from
  {
    if from + |pat| > |s| then None
    else if MatchesAt(s, pat, from) then Some(from)
    else FindFrom(s, pat, from + 1)
  }

  /** `regex.search(body).group(1)` for the pattern '<title>(.*?)</title>' compiled with
      IGNORECASE and DOTALL; None where the search finds nothing (and `.group` then
      raises AttributeError). */
  function Search(body: string): (r: Option<string>)
  {
    match FindFrom(body, Open, 0)
    case None => None
    case Some(i) =>
      match FindFrom(body, Close, i + |Open|)
      case None => None
      case Some(j) => Some(body[i + |Open|..j])
  }

  /** A match of the pattern: `<title>` at `i` and `</title>` at `j`, with the group
      `s[i + 7..j]` between them; DOTALL lets the group hold any character, newlines
      included. */
  predicate IsMatch(s: string, i: int, j: int) {
    MatchesAt(s, Open, i) && i + |Open| <= j && MatchesAt(s, Close, j)
  }

  /** Search finds a match exactly when the pattern matches somewhere, and then returns
      the group of the match a regular-expression search reports: the leftmost start,
      and for it the shortest group (the lazy `.*?`). */
  lemma SearchIsLeftmostLazy(s: string)
    ensures Search(s).Some? <==> exists i, j :: IsMatch(s, i, j)
    ensures Search(s).Some? ==>
      exists i, j :: IsMatch(s, i, j) && Search(s).value == s[i + |Open|..j] &&
        forall i', j' :: IsMatch(s, i', j') ==> i < i' || (i == i' && j <= j')
  {
    match FindFrom(s, Open, 0)
    case None =>
      assert forall i, j :: !IsMatch(s, i, j);
    case Some(i) =>
      match FindFrom(s, Close, i + |Open|)
      case None =>
        assert forall i', j' :: !IsMatch(s, i', j');
      case Some(j) =>
        assert IsMatch(s, i, j);
        forall i', j' | IsMatch(s, i', j') ensures i < i' || (i == i' && j <= j') {
          assert MatchesAt(s, Open, i') && i <= i';
          if i == i' {
            assert MatchesAt(s, Close, j') && i + |Open| <= j';
          }
        }
  }

  /** `str.replace("\n", " ")`. */
  function ReplaceNewlines(s: string): (r: string)
    ensures |r| == |s|
    ensures forall i :: 0 <= i < |s| ==> r[i] == if s[i] == '\n' then ' ' else s[i]
    ensures '\n' !in r
  {
    if s == [] then []
    else
      var last := s[|s| - 1];
      ReplaceNewlines(s[..|s| - 1]) + [if last == '\n' then ' ' else last]
  }

  /** The first index at or after `i` whose character is not in `cs`, or `|s|`. */
  function LeftCut(s: string, cs: set<char>, i: nat): (k: nat)
    requires i <= |s|
    ensures i <= k <= |s|
    ensures forall m :: i <= m < k ==> s[m] in cs
    ensures k < |s| ==> s[k] !in cs
    decreases |s| - i
  {
    if i < |s| && s[i] in cs then LeftCut(s, cs, i + 1) else i
  }

  /** The end of `s[lo..j]` once its trailing characters in `cs` are cut off. */
  function RightCut(s: string, cs: set<char>, lo: nat, j: nat): (k: nat)
    requires lo <= j <= |s|
    ensures lo <= k <= j
    ensures forall m :: k <= m < j ==> s[m] in cs
    ensures k > lo ==> s[k - 1] !in cs
    decreases j
  {
    if j > lo && s[j - 1] in cs then RightCut(s, cs, lo, j - 1) else j
  }

  /** `str.strip(chars)`: the longest slice of `s` that neither starts nor ends with a
      character of `chars`, obtained by removing only such characters. */
  function Strip(s: string, cs: set<char>): (r: string)
    ensures r != [] ==> r[0] !in cs && r[|r| - 1] !in cs
    ensures exists a, b ::
      && 0 <= a <= b <= |s| && r == s[a..b]
      && (forall k :: 0 <= k < a ==> s[k] in cs)
      && (forall k :: b <= k < |s| ==> s[k] in cs)
    ensures forall c :: c in r ==> c in s
  {
    var a := LeftCut(s, cs, 0);
    var b := RightCut(s, cs, a, |s|);
    assert forall k :: b <= k < |s| ==> s[k] in cs;
    s[a..b]
  }

  /** titles.py:141-143: html.unescape, then newlines to spaces, then strip ' \t\r'.
      The result holds no newline and neither starts nor ends with ' ', '\t' or '\r'. */
  function Clean(raw: string, unescape: string -> string): (t: string)
    ensures '\n' !in t
    ensures t != [] ==> t[0] !in Trimmed && t[|t| - 1] !in Trimmed
  {
    Strip(ReplaceNewlines(unescape(raw)), Trimmed)
  }
}

=== FILE: tweets.dfy ===
/** The per-line transform of parse.py: project a decoded tweet onto the row stored for it. */
module Tweets {
  import opened Wrappers
  import opened Json

  /** One row of the ingestion table, in the column order of the INSERT. */
  datatype Tweet = Tweet(
    id: Json,
    userId: Json,
    createdAt: string,
    text: Json,
    hashtags: seq<Json>,
    urls: seq<Json>,
    mentions: seq<Json>)

  /** The library calls the projection makes: html.unescape, and the
      strptime/strftime timestamp conversion, where None is strptime's ValueError. */
  datatype Library = Library(unescape: string -> string, timestamp: string -> Option<string>)

  /** `lambda v: v[key]`, the lookup applied to every entity of a list. */
  function Lookup(key: string): Json -> Result<Json, Error>
  {
    v => Index(v, key)
  }

  /** `vs` without its falsy elements, in their original order. */
  function Truthies(vs: seq<Json>): (r: seq<Json>)
    ensures forall x :: x in r <==> x in vs && Truthy(x)
    ensures |r| <= |vs|
  {
    if vs == [] then []
    else
      var init := vs[..|vs| - 1];
      assert vs == init + [vs[|vs| - 1]];
      Truthies(init) + (if Truthy(vs[|vs| - 1]) then [vs[|vs| - 1]] else [])
  }

  /** Filtering distributes over concatenation, so the kept elements keep their order. */
  lemma {:induction false} TruthiesAppend(a: seq<Json>, b: seq<Json>)
    ensures Truthies(a + b) == Truthies(a) + Truthies(b)
    decreases |b|
  {
    if b == [] {
      assert a + b == a;
    } else {
      var init, last := b[..|b| - 1], b[|b| - 1];
      var tail := if Truthy(last) then [last] else [];
      assert (a + b)[..|a + b| - 1] == a + init;
      assert (a + b)[|a + b| - 1] == last;
      assert Truthies(a + b) == Truthies(a + init) + tail;
      assert Truthies(b) == Truthies(init) + tail;
      TruthiesAppend(a, init);
    }
  }

  /** The list an `append` loop over `entities` builds from each entity's `key`:
      every value, or (for `urls`) only the truthy ones. The first entity that is not
      a dict holding `key` raises, and nothing is built. */
  function Plucked(entities: seq<Json>, key: string, truthyOnly: bool): Result<seq<Json>, Error>
  {
    var values :- Traverse(entities, Lookup(key));
    Ok(if truthyOnly then Truthies(values) else values)
  }

  /** Plucking succeeds exactly when every entity is a dict holding `key`. It then
      keeps every value in entity order, or exactly the truthy ones; otherwise it
      raises the error of the first entity that lacks `key`. */
  lemma PluckedOutcome(entities: seq<Json>, key: string, truthyOnly: bool)
    ensures var r := Plucked(entities, key, truthyOnly);
      && (r.Ok? <==> forall i :: 0 <= i < |entities| ==> Index(entities[i], key).Ok?)
      && (r.Ok? && !truthyOnly ==>
            |r.value| == |entities| && forall i :: 0 <= i < |entities| ==> Index(entities[i], key) == Ok(r.value[i]))
      && (r.Ok? && truthyOnly ==>
            forall x :: x in r.value <==> Truthy(x) && exists i :: 0 <= i < |entities| && Index(entities[i], key) == Ok(x))
      && (r.Err? ==>
            exists i :: 0 <= i < |entities| && Index(entities[i], key) == Err(r.error) &&
                        forall j :: 0 <= j < i ==> Index(entities[j], key).Ok?)
  {
    TraverseOutcome(entities, Lookup(key));
    var t := Traverse(entities, Lookup(key));
    if t.Ok? {
      var values := t.value;
      forall x ensures x in values <==> exists i :: 0 <= i < |entities| && Index(entities[i], key) == Ok(x) {
        if x in values {
          var i :| 0 <= i < |values| && values[i] == x;
          assert Index(entities[i], key) == Ok(x);
        }
      }
    }
  }

  /** A failed pluck raised the KeyError or TypeError of a subscript. */
  lemma PluckedErrors(entities: seq<Json>, key: string, truthyOnly: bool)
    ensures Plucked(entities, key, truthyOnly).Err? ==>
      Plucked(entities, key, truthyOnly).error in {KeyError, TypeError}
  {
    TraverseOutcome(entities, Lookup(key));
  }

  /** The three `for ...: ....append(...)` loops of parse.py. */
  method Pluck(entities: seq<Json>, key: string, truthyOnly: bool) returns (r: Result<seq<Json>, Error>)
    ensures r == Plucked(entities, key, truthyOnly)
  {
    var acc: seq<Json> := [];
    ghost var values: seq<Json> := [];
    for i := 0 to |entities|
      invariant Traverse(entities[..i], Lookup(key)) == Ok(values)
      invariant acc == if truthyOnly then Truthies(values) else values
    {
      var v := Index(entities[i], key);
      assert entities[..i + 1][..i] == entities[..i];
      if v.Err? {
        TraverseStopsAtFailure(entities, Lookup(key), i + 1);
        return Err(v.error);
      }
      if !truthyOnly || Truthy(v.value) {
        acc := acc + [v.value];
      }
      assert (values + [v.value])[..|values|] == values;
      values := values + [v.value];
    }
    assert entities[..|entities|] == entities;
    r := Ok(acc);
  }

  /** `html.unescape(v)`: a str is unescaped; a list or dict with no "&" member is
      returned as it is (the function's `'&' not in s` shortcut); anything else
      raises TypeError. */
  function Unescape(v: Json, unescape: string -> string): (r: Result<Json, Error>)
    ensures v.JStr? ==> r == Ok(JStr(unescape(v.s)))
    ensures r.Ok? && !v.JStr? ==> r.value == v && (v.JArr? || v.JObj?)
    ensures (v.JArr? && JStr("&") !in v.items) || (v.JObj? && "&" !in v.fields) ==> r == Ok(v)
    ensures r.Ok? <==> v.JStr? || (v.JArr? && JStr("&") !in v.items) || (v.JObj? && "&" !in v.fields)
    ensures r.Err? ==> r.error == TypeError
  {
    match v
    case JStr(s) => Ok(JStr(unescape(s)))
    case JArr(a) => if JStr("&") in a then Err(TypeError) else Ok(v)
    case JObj(m) => if "&" in m then Err(TypeError) else Ok(v)
    case _ => Err(TypeError)
  }

  /** `strftime(..., strptime(v, ...))`: strptime raises TypeError on anything but a
      str and ValueError on a str that does not match the format. */
  function Timestamp(v: Json, timestamp: string -> Option<string>): (r: Result<string, Error>)
    ensures r.Ok? <==> v.JStr? && timestamp(v.s).Some?
    ensures r.Ok? ==> r.value == timestamp(v.s).value
    ensures r.Err? ==> (r.error == ValueError <==> v.JStr?)
    ensures !v.JStr? ==> r == Err(TypeError)
  {
    match v
    case JStr(s) =>
      (match timestamp(s)
       case Some(t) => Ok(t)
       case None => Err(ValueError))
    case _ => Err(TypeError)
  }

  /** What the three loops over `tweet['entities']` collect. */
  datatype Entities = Entities(urls: seq<Json>, hashtags: seq<Json>, mentions: seq<Json>)

  /** The loops over the "urls", "hashtags" and "user_mentions" lists of an entities
      value, in that order, so that the first failing read decides the exception. */
  function EntityLists(entities: Json): Result<Entities, Error>
  {
    var urlList :- Index(entities, "urls");
    var urlItems :- Iterate(urlList);
    var urls :- Plucked(urlItems, "expanded_url", true);
    var tagList :- Index(entities, "hashtags");
    var tagItems :- Iterate(tagList);
    var hashtags :- Plucked(tagItems, "text", false);
    var mentionList :- Index(entities, "user_mentions");
    var mentionItems :- Iterate(mentionList);
    var mentions :- Plucked(mentionItems, "id", false);
    Ok(Entities(urls, hashtags, mentions))
  }

  /** The entity loops raise only KeyError or TypeError, and keep only truthy URLs. */
  lemma EntityListsOutcome(entities: Json)
    ensures EntityLists(entities).Err? ==> EntityLists(entities).error in {KeyError, TypeError}
    ensures EntityLists(entities).Ok? ==> forall x :: x in EntityLists(entities).value.urls ==> Truthy(x)
  {
    var urls := Index(entities, "urls");
    if urls.Ok? && Iterate(urls.value).Ok? {
      PluckedErrors(Iterate(urls.value).value, "expanded_url", true);
    }
    var tags := Index(entities, "hashtags");
    if tags.Ok? && Iterate(tags.value).Ok? {
      PluckedErrors(Iterate(tags.value).value, "text", false);
    }
    var mentions := Index(entities, "user_mentions");
    if mentions.Ok? && Iterate(mentions.value).Ok? {
      PluckedErrors(Iterate(mentions.value).value, "id", false);
    }
  }

  /** The entity loops as the source runs them, with their append loops. */
  method CollectEntities(entities: Json) returns (r: Result<Entities, Error>)
    ensures r == EntityLists(entities)
  {
    var urlList :- Index(entities, "urls");
    var urlItems :- Iterate(urlList);
    var urls :- Pluck(urlItems, "expanded_url", true);
    var tagList :- Index(entities, "hashtags");
    var tagItems :- Iterate(tagList);
    var hashtags :- Pluck(tagItems, "text", false);
    var mentionList :- Index(entities, "user_mentions");
    var mentionItems :- Iterate(mentionList);
    var mentions :- Pluck(mentionItems, "id", false);
    r := Ok(Entities(urls, hashtags, mentions));
  }

  /** The fields a record needs at top level. */
  const RequiredKeys: set<string> := {"id", "user", "text", "created_at", "entities"}

  /** The field projection of parse.py, evaluated in the order the source reads the
      fields, so that the first failing read decides the exception. */
  function Parse(v: Json, lib: Library): Result<Tweet, Error>
  {
    var id :- Index(v, "id");
    var user :- Index(v, "user");
    var userId :- Index(user, "id");
    var rawText :- Index(v, "text");
    var text :- Unescape(rawText, lib.unescape);
    var rawDate :- Index(v, "created_at");
    var createdAt :- Timestamp(rawDate, lib.timestamp);
    var entities :- Index(v, "entities");
    var lists :- EntityLists(entities);
    Ok(Tweet(id, userId, createdAt, text, lists.hashtags, lists.urls, lists.mentions))
  }

  /** A record that is not a dict raises TypeError, one without "id" raises KeyError,
      and the projection never raises a decode error. */
  lemma ParseErrors(v: Json, lib: Library)
    ensures !v.JObj? ==> Parse(v, lib) == Err(TypeError)
    ensures v.JObj? && "id" !in v.fields ==> Parse(v, lib) == Err(KeyError)
    ensures Parse(v, lib).Err? ==> Parse(v, lib).error != DecodeError
  {
    if Index(v, "entities").Ok? {
      EntityListsOutcome(Index(v, "entities").value);
    }
  }

  /** A record missing any of the required top-level fields is not stored. */
  lemma ParseRequiresFields(v: Json, lib: Library)
    requires v.JObj? && !(RequiredKeys <= v.fields.Keys)
    ensures Parse(v, lib).Err?
  {
    var k :| k in RequiredKeys && k !in v.fields;
  }

  /** `key`, when present in `v`, holds a list whose every element is a dict. */
  predicate ListOfDicts(v: Json, key: string)
    requires v.JObj?
  {
    key in v.fields ==> v.fields[key].JArr? && forall x :: x in v.fields[key].items ==> x.JObj?
  }

  /** A record whose present fields have the shapes the projection reads: `user` a
      dict, `text` a str, `created_at` a str the format accepts, and `entities` a dict
      whose entity lists are lists of dicts. Only a missing key can then go wrong. */
  predicate WellShaped(v: Json, lib: Library) {
    && v.JObj?
    && ("user" in v.fields ==> v.fields["user"].JObj?)
    && ("text" in v.fields ==> v.fields["text"].JStr?)
    && ("created_at" in v.fields ==>
          v.fields["created_at"].JStr? && lib.timestamp(v.fields["created_at"].s).Some?)
    && ("entities" in v.fields ==>
          var e := v.fields["entities"];
          e.JObj? && ListOfDicts(e, "urls") && ListOfDicts(e, "hashtags") && ListOfDicts(e, "user_mentions"))
  }

  /** Over a list of dicts, the only exception an append loop raises is KeyError. */
  lemma PluckedDictsKeyError(entities: seq<Json>, key: string, truthyOnly: bool)
    requires forall x :: x in entities ==> x.JObj?
    ensures Plucked(entities, key, truthyOnly).Err? ==> Plucked(entities, key, truthyOnly).error == KeyError
  {
    TraverseOutcome(entities, Lookup(key));
    if Traverse(entities, Lookup(key)).Err? {
      var i :| 0 <= i < |entities| && Lookup(key)(entities[i]) == Err(Traverse(entities, Lookup(key)).error);
      assert entities[i] in entities;
    }
  }

  /** On a well-shaped record, every exception the projection raises is a KeyError, and
      a record missing any required field raises exactly that: the source's KeyError
      handler counts it as a skip rather than a crash. */
  lemma ParseMissingKeySkips(v: Json, lib: Library)
    requires WellShaped(v, lib)
    ensures Parse(v, lib).Err? ==> Parse(v, lib).error == KeyError
    ensures !(RequiredKeys <= v.fields.Keys) ==> Parse(v, lib) == Err(KeyError)
  {
    if "entities" in v.fields {
      var e := v.fields["entities"];
      if "urls" in e.fields {
        PluckedDictsKeyError(e.fields["urls"].items, "expanded_url", true);
      }
      if "hashtags" in e.fields {
        PluckedDictsKeyError(e.fields["hashtags"].items, "text", false);
      }
      if "user_mentions" in e.fields {
        PluckedDictsKeyError(e.fields["user_mentions"].items, "id", false);
      }
    }
    if !(RequiredKeys <= v.fields.Keys) {
      ParseRequiresFields(v, lib);
    }
  }

  /** A stored row carries the record's id and only truthy URLs. */
  lemma ParseKeeps(v: Json, lib: Library)
    requires Parse(v, lib).Ok?
    ensures v.JObj? && "id" in v.fields && Parse(v, lib).value.id == v.fields["id"]
    ensures forall x :: x in Parse(v, lib).value.urls ==> Truthy(x)
  {
    EntityListsOutcome(Index(v, "entities").value);
  }

  /** The projection as the source runs it, with its append loops. */
  method ParseTweet(v: Json, lib: Library) returns (r: Result<Tweet, Error>)
    ensures r == Parse(v, lib)
  {
    var id :- Index(v, "id");
    var user :- Index(v, "user");
    var userId :- Index(user, "id");
    var rawText :- Index(v, "text");
    var text :- Unescape(rawText, lib.unescape);
    var rawDate :- Index(v, "created_at");
    var createdAt :- Timestamp(rawDate, lib.timestamp);
    var entities :- Index(v, "entities");
    var lists :- CollectEntities(entities);
    r := Ok(Tweet(id, userId, createdAt, text, lists.hashtags, lists.urls, lists.mentions));
  }

  /** For a stored tweet whose entity lists are lists, `hashtags` and `user_mentions`
      hold one value per entity in entity order, and `urls` holds the truthy
      `expanded_url` values in entity order. */
  lemma EntityOrder(v: Json, lib: Library, entities: Json, urls: seq<Json>, tags: seq<Json>, mentions: seq<Json>)
    requires Parse(v, lib).Ok?
    requires Index(v, "entities") == Ok(entities)
    requires Index(entities, "urls") == Ok(JArr(urls))
    requires Index(entities, "hashtags") == Ok(JArr(tags))
    requires Index(entities, "user_mentions") == Ok(JArr(mentions))
    ensures var t := Parse(v, lib).value;
      && |t.hashtags| == |tags| && (forall i :: 0 <= i < |tags| ==> Index(tags[i], "text") == Ok(t.hashtags[i]))
      && |t.mentions| == |mentions| && (forall i :: 0 <= i < |mentions| ==> Index(mentions[i], "id") == Ok(t.mentions[i]))
      && Traverse(urls, Lookup("expanded_url")).Ok?
      && t.urls == Truthies(Traverse(urls, Lookup("expanded_url")).value)
  {
    var t := Parse(v, lib).value;
    assert EntityLists(entities).Ok?;
    assert Plucked(urls, "expanded_url", true) == Ok(t.urls);
    assert Plucked(tags, "text", false) == Ok(t.hashtags);
    assert Plucked(mentions, "id", false) == Ok(t.mentions);
    PluckedOutcome(tags, "text", false);
    PluckedOutcome(mentions, "id", false);
  }
}

=== FILE: wrappers.dfy ===
/** Failure-compatible wrappers used by every module of the model. */
module Wrappers {

  datatype Option<+T> = None | Some(value: T)

  /** The outcome of a step that may raise: a value, or the exception it raised. */
  datatype Result<+T, +E> = Ok(value: T) | Err(error: E) {
    predicate IsFailure() { Err? }

    function PropagateFailure<U>(): Result<U, E>
      requires Err?
    {
      Err(error)
    }

    function Extract(): T
      requires Ok?
    {
      value
    }
  }

  /** Applies `f` to every element in order and stops at the first failure,
      the way a Python `for` loop that appends to a list stops when its body raises. */
  function Traverse<A, B, E>(xs: seq<A>, f: A -> Result<B, E>): Result<seq<B>, E>
    decreases |xs|
  {
    if xs == [] then Ok([])
    else
      var init :- Traverse(xs[..|xs| - 1], f);
      var y :- f(xs[|xs| - 1]);
      Ok(init + [y])
  }

  /** Traverse succeeds exactly when `f` succeeds on every element, and then holds
      each element's value in order; otherwise it fails with the error of the first
      element on which `f` fails. */
  lemma {:induction false} TraverseOutcome<A, B, E>(xs: seq<A>, f: A -> Result<B, E>)
    ensures var r := Traverse(xs, f);
      && (r.Ok? <==> forall i :: 0 <= i < |xs| ==> f(xs[i]).Ok?)
      && (r.Ok? ==> |r.value| == |xs| && forall i :: 0 <= i < |xs| ==> f(xs[i]) == Ok(r.value[i]))
      && (r.Err? ==> exists i :: 0 <= i < |xs| && f(xs[i]) == Err(r.error) &&
                                 forall j :: 0 <= j < i ==> f(xs[j]).Ok?)
    decreases |xs|
  {
    if xs != [] {
      var init, last := xs[..|xs| - 1], xs[|xs| - 1];
      TraverseOutcome(init, f);
      assert forall i :: 0 <= i < |init| ==> init[i] == xs[i];
      var prefix := Traverse(init, f);
      if prefix.Err? {
        var i :| 0 <= i < |init| && f(init[i]) == Err(prefix.error) &&
                 forall j :: 0 <= j < i ==> f(init[j]).Ok?;
        assert f(xs[i]).Err?;
      } else if f(last).Err? {
        assert f(xs[|init|]) == Err(Traverse(xs, f).error);
      } else {
        var r := prefix.value + [f(last).value];
        assert Traverse(xs, f) == Ok(r);
        assert forall i :: 0 <= i < |xs| ==> f(xs[i]) == Ok(r[i]);
      }
    }
  }

  /** Once a prefix has failed, the elements after it are never looked at. */
  lemma {:induction false} TraverseStopsAtFailure<A, B, E>(xs: seq<A>, f: A -> Result<B, E>, k: nat)
    requires k <= |xs| && Traverse(xs[..k], f).Err?
    ensures Traverse(xs, f) == Traverse(xs[..k], f)
    decreases |xs|
  {
    if k < |xs| {
      var init := xs[..|xs| - 1];
      assert init[..k] == xs[..k];
      TraverseStopsAtFailure(init, f, k);
    } else {
      assert xs[..k] == xs;
    }
  }
}
